=== FILE: README.md ===
# Multi-tenant OpenAI SDK policy, modelled in Dafny

The repository lets several tenants share one Azure OpenAI key. On the client,
the `GetChatCompletions[Async]` extension methods tag a chat request. Every
system message is replaced by one holding the template
`{{<TenantId>` + id + `</TenantId>}}` followed by the content of the first
system message. In the HTTP pipeline, `MultiTenantPolicy` then does four things:

- It reads the raw request text.
- It takes the tenant id out of the first system message.
- It deletes the JSON-escaped marker from the text and forwards the rest.
- It reads the `usage` counters from the response, puts the response text
  back into a fresh stream, and logs the tenant with its usage.

The model has ten modules:

- `Wrappers` and `Exceptions` (`base.dfy`) hold `Option`/`Result` and the
  .NET exceptions the code can raise.
- `Text` models the .NET string operations the codec uses: `IndexOf`,
  `Contains`, `Substring` with its range check, and `Replace`. `Replace`
  works left to right and does not overlap matches. The module also proves
  when `Replace` distributes over a concatenation.
- `JsonModel` models a JSON value and the `JsonElement` accessors: a
  duplicate property resolves to its last value, and each accessor throws
  the exception .NET throws. It also models how the default encoder escapes
  a string value.
- `Marker` holds the plain template and the escaped literal the policy
  deletes.
- `Codec` models `GetAndRemoveTenantId` with its slice arithmetic as written.
  The evidently intended slice and decoder sit beside it (see Findings).
- `Usage` models `GetTokenUsage` and `GetUsage`.
- `Policy` models `Process` and `ProcessAsync`.
  - `ProcessAsync` is a state machine with one state per `await`.
  - It is proved to take the same steps as `Process`.
- `Tagger` models the two extension methods.
- `Wire` models the request body the SDK writes, reduced to its `messages`.
- `RoundTrip` composes the tagger with the policy.

JSON parsing is a parameter, `parse: string -> Option<Json>`. So is the
rest of the pipeline, `next: string -> Option<string>`. It receives the
forwarded request text and yields the response text, or `None` for a null
stream.

## Model

| member | source | states |
|---|---|---|
| `Text.IndexOf` | src/PipelinePolicy/MultiTenantPolicy.cs:81-82 | The first index at which the delimiter occurs, with no earlier occurrence. The result is -1 exactly when the text does not contain it. |
| `Text.Substring` | src/PipelinePolicy/MultiTenantPolicy.cs:80-83 | Succeeds exactly when start and length are in range, and then returns that slice. Otherwise it raises `ArgumentOutOfRangeException`. |
| `Text.ReplaceAllAbsent` | src/PipelinePolicy/MultiTenantPolicy.cs:86-92 | `Replace` leaves text without an occurrence unchanged. |
| `Text.ReplaceAllLength` | src/PipelinePolicy/MultiTenantPolicy.cs:86-92 | Replacing by the empty text never lengthens the request. It strictly shortens a request that contains the marker. |
| `Text.ReplaceAllFront` | src/PipelinePolicy/MultiTenantPolicy.cs:86-92 | An occurrence at the very front is removed, and scanning resumes after it. |
| `Text.ReplaceAllSingle` | src/PipelinePolicy/MultiTenantPolicy.cs:86-92 | With exactly one occurrence, exactly that slice is replaced. |
| `Text.ReplaceAllConcat` | src/PipelinePolicy/MultiTenantPolicy.cs:86-92 | `Replace` distributes over a concatenation when no occurrence crosses the seam. |
| `JsonModel.GetProperty` | src/PipelinePolicy/MultiTenantPolicy.cs:69-72 | A non-object raises `InvalidOperationException` and a missing name raises `KeyNotFoundException`. Otherwise the value of the last property with that name. |
| `JsonModel.EnumerateArray` | src/PipelinePolicy/MultiTenantPolicy.cs:70 | Succeeds exactly on arrays and yields their elements; anything else raises `InvalidOperationException`. |
| `JsonModel.GetString` | src/PipelinePolicy/MultiTenantPolicy.cs:71-75 | A JSON string yields its text and JSON null yields null. Anything else raises `InvalidOperationException`. |
| `JsonModel.GetInt16` | src/PipelinePolicy/MultiTenantPolicy.cs:115-117 | A number within 16 bits is returned. One outside raises `FormatException`, and a non-number raises `InvalidOperationException`. |
| `JsonModel.EscConcat` | src/PipelinePolicy/MultiTenantPolicy.cs:86-90 | The encoder escapes a concatenation piece by piece. |
| `JsonModel.EscVerbatim` | src/PipelinePolicy/MultiTenantPolicy.cs:86-90 | Text made of characters the encoder does not escape is written unchanged. |
| `Marker.Template` | src/PipelinePolicy/OpenAIClientExtensions.cs:10 | The template is open delimiter, id and close delimiter. It is 25 characters longer than the id, and each part sits at its fixed offset. |
| `Marker.EscapedTemplate` | src/PipelinePolicy/MultiTenantPolicy.cs:86-90 | The literal that is deleted is 45 characters longer than the id. |
| `Marker.EscapedTemplateIsEncoding` | src/PipelinePolicy/MultiTenantPolicy.cs:86-90 | For an id the encoder writes verbatim, the deleted literal is exactly the encoder's output for the template the tagger inserted. |
| `Marker.EscapedTemplateLacks` | src/PipelinePolicy/MultiTenantPolicy.cs:86-90 | The literal never holds a quote, comma or bracket, so it cannot cross the JSON punctuation between values. |
| `Codec.Parse` | src/PipelinePolicy/MultiTenantPolicy.cs:66-67 | Succeeds exactly when the text parses. Otherwise it raises the parse exception. |
| `Codec.FirstSystemContent` | src/PipelinePolicy/MultiTenantPolicy.cs:69-75 | The content of the first element whose role is "system", after every earlier role was read without error. It fails with `InvalidOperationException` when every element is passed over. |
| `Codec.ExtractTenantId` | src/PipelinePolicy/MultiTenantPolicy.cs:80-83 | The slice as written: it starts 12 characters after the opening delimiter and is `IndexOf(close) - 12` long. It succeeds exactly when that range fits, and otherwise raises `ArgumentOutOfRangeException`. |
| `Codec.ExtractTenantIdBetween` | src/PipelinePolicy/MultiTenantPolicy.cs:80-83 | The intended slice: exactly the text between the first opening and the first closing delimiter. It succeeds exactly when the first closing delimiter starts at or after the end of the first opening one. |
| `Codec.AtStartBothAgree` | src/PipelinePolicy/MultiTenantPolicy.cs:80-83 | When the opening delimiter is at offset 0, the written and the intended slice agree. |
| `Codec.OffsetOverruns` | src/PipelinePolicy/MultiTenantPolicy.cs:80-83 | At an opening offset `o > 0`, the written slice is the intended id followed by `o` more characters, starting with `<`. |
| `Codec.LeadingCharOverrun` | src/PipelinePolicy/MultiTenantPolicy.cs:80-83 | One character before the template makes the written slice yield the id plus `<`, while the intended slice yields the id. |
| `Codec.MarkerAnywhere` | src/PipelinePolicy/MultiTenantPolicy.cs:78-83 | The intended slice recovers the id wherever the template stands, provided neither the text before it nor the id contains `<`. |
| `Codec.StripMarker` | src/PipelinePolicy/MultiTenantPolicy.cs:86-92 | The stripped text is never longer, and it is unchanged when the escaped marker is absent. |
| `Codec.StripSingle` | src/PipelinePolicy/MultiTenantPolicy.cs:86-92 | With exactly one occurrence of the escaped marker, exactly that slice is deleted. |
| `Codec.DecodeMarker` | src/PipelinePolicy/MultiTenantPolicy.cs:77-94 | Lines 77-94 as written. Unless the content contains both delimiters, the result is `("", text)`. Otherwise it succeeds exactly when the written slice fits (`12 <= IndexOf(close)` and `IndexOf(open) + IndexOf(close)` within the content), and raises `ArgumentOutOfRangeException` when it does not. On success the id is the `IndexOf(close) - 12` characters after the opening delimiter, and the forwarded text is the received text with that id's escaped marker deleted. The text never grows. |
| `Codec.DecodeMarkerIntended` | src/PipelinePolicy/MultiTenantPolicy.cs:77-94 | The decoder with the intended slice. It succeeds exactly when the first closing delimiter starts at or after the end of the first opening one, and the id is exactly the text between them. |
| `Codec.DecodersAgreeAtStart` | src/PipelinePolicy/MultiTenantPolicy.cs:77-94 | When the content does not contain the opening delimiter, or starts with it, the written and the intended decoder give the same answer. |
| `Codec.DecodeLeadingChar` | src/PipelinePolicy/MultiTenantPolicy.cs:80-92 | On one character followed by a template, the written decoder returns the id plus `<` and deletes the literal built from that longer id. The intended decoder returns the id and deletes its literal. |
| `Codec.IntendedDecodeAnywhere` | src/PipelinePolicy/MultiTenantPolicy.cs:77-94 | The intended decoder recovers the id wherever the template stands, provided neither the text before it nor the id contains `<`. |
| `Codec.DecodeAtStart` | src/PipelinePolicy/MultiTenantPolicy.cs:77-94 | Content that starts with a template decodes to its id, with its escaped marker stripped from the text. |
| `Codec.GetAndRemoveTenantId` | src/PipelinePolicy/MultiTenantPolicy.cs:55-95 | No request content gives `("", "")`, and unparsable text raises. Otherwise the forwarded text is never longer than the received text, and it is unchanged when the escaped marker is absent. A non-empty tenant id comes with the received text with that id's escaped marker deleted. |
| `Codec.DecodesFirstSystemContent` | src/PipelinePolicy/MultiTenantPolicy.cs:69-78 | In any parsed request whose `messages` is an array, the decoder reads the content of the first system element of that array. |
| `Codec.NoSystemMessageFails` | src/PipelinePolicy/MultiTenantPolicy.cs:69-75 | In any parsed request whose `messages` array has no system element, the decoder raises `InvalidOperationException`, because `GetString` is called on the default element. |
| `Usage.GetTokenUsage` | src/PipelinePolicy/MultiTenantPolicy.cs:110-120 | Unparsable text raises. Success means the document reports exactly these three 16-bit counters, and a document reporting some usage always yields it. |
| `Usage.MissingUsageFails` | src/PipelinePolicy/MultiTenantPolicy.cs:115 | A response without `usage` raises `KeyNotFoundException("usage")`; it does not count zero. |
| `Usage.CounterOutOfRangeFails` | src/PipelinePolicy/MultiTenantPolicy.cs:115 | A `total_tokens` outside 16 bits raises `FormatException`. |
| `Usage.UsageRoundTrip` | src/PipelinePolicy/MultiTenantPolicy.cs:110-120 | A response whose `usage` object holds the three counters, in any order and among any other response fields, reads back as exactly those counters. |
| `Usage.GetUsage` | src/PipelinePolicy/MultiTenantPolicy.cs:97-108 | A null stream gives zero usage and empty text. Otherwise it succeeds exactly when `GetTokenUsage` does, hands back the text it read unchanged, and fails with the same exception. |
| `Policy.Process` | src/PipelinePolicy/MultiTenantPolicy.cs:9-33 | The steps follow the order set, send, replace stream, log. A run without an exception has all four. A decode failure takes no step. The body that is set is the body that is sent, namely the decoded request text. |
| `Policy.Forward` | src/PipelinePolicy/MultiTenantPolicy.cs:14-32 | After decoding, the decoded text is set and sent. A complete run leaves a stream holding the text that is logged, under the decoded tenant. |
| `Policy.ForwardedNotLonger` | src/PipelinePolicy/MultiTenantPolicy.cs:12-17 | The text sent on is never longer than the text received. |
| `Policy.NullContentSendsEmpty` | src/PipelinePolicy/MultiTenantPolicy.cs:55-59 | A request without content is sent on as the empty text, and a complete run logs the tenant "". |
| `Policy.ForwardsDecoded` | src/PipelinePolicy/MultiTenantPolicy.cs:12-17 | Once decoding succeeds, the first two steps set and send the decoded text. A complete run logs the decoded tenant. |
| `Policy.NullStreamLogsZero` | src/PipelinePolicy/MultiTenantPolicy.cs:97-108 | A null response stream is replaced by an empty one and logged with zero counters. |
| `Policy.LogsDecodedTenantAndUsage` | src/PipelinePolicy/MultiTenantPolicy.cs:27-32 | The log entry carries the decoded tenant, the response text, and the counters the response reports. |
| `Policy.Resume` | src/PipelinePolicy/MultiTenantPolicy.cs:35-53 | Each continuation moves to a later stage and only appends steps. |
| `Policy.ResumeOnTrack` | src/PipelinePolicy/MultiTenantPolicy.cs:35-53 | Each continuation leaves the machine where `Process` would be at that stage. |
| `Policy.ProcessAsync` | src/PipelinePolicy/MultiTenantPolicy.cs:35-53 | The asynchronous path takes the same steps, leaves the same stream and raises the same exception as `Process`. |
| `Tagger.FirstSystem` | src/PipelinePolicy/OpenAIClientExtensions.cs:12-16 | The content of the first system message, or "" when there is none. |
| `Tagger.Rewrite` | src/PipelinePolicy/OpenAIClientExtensions.cs:19-26 | Same length and order. Each system message is replaced by one with the given content, and every other message is kept. |
| `Tagger.Tag` | src/PipelinePolicy/OpenAIClientExtensions.cs:8-32 | Non-system messages are unchanged. Every system message becomes template plus the first system content. |
| `Tagger.TagWithoutSystem` | src/PipelinePolicy/OpenAIClientExtensions.cs:12-26 | Without a system message the list is left as it is; no marker is added. |
| `Tagger.TagFirstSystem` | src/PipelinePolicy/OpenAIClientExtensions.cs:19-26 | The first system message stays at its index, led by the template. |
| `Tagger.TagTwice` | src/PipelinePolicy/OpenAIClientExtensions.cs:27-30 | Tagging an already tagged list puts the template in front twice. |
| `Tagger.DuplicateMessages` | src/PipelinePolicy/OpenAIClientExtensions.cs:45-52 | The loop builds exactly the tagged list. |
| `Tagger.Refill` | src/PipelinePolicy/OpenAIClientExtensions.cs:53-56 | Clearing and re-adding leaves the caller's list equal to the modified one. |
| `Tagger.GetChatCompletionsAsync` | src/PipelinePolicy/OpenAIClientExtensions.cs:8-32 | The caller's list ends up tagged, and the client is asked to send that list to the given deployment. |
| `Tagger.GetChatCompletions` | src/PipelinePolicy/OpenAIClientExtensions.cs:34-58 | The same list and call as the asynchronous variant. |
| `Tagger.SampleTenantIdWellFormed` | src/client/Program.cs:17 | The sample client's tenant id meets the round-trip hypothesis on ids. |
| `RoundTrip.MessageDocRead` | src/PipelinePolicy/MultiTenantPolicy.cs:71-74 | A serialized message is a system element exactly when its role is system, and its content reads back unchanged. |
| `RoundTrip.StripTaggedContent` | src/PipelinePolicy/MultiTenantPolicy.cs:86-92 | The escaped content of a tagged system message loses exactly its leading marker. |
| `RoundTrip.StripItems` | src/PipelinePolicy/MultiTenantPolicy.cs:86-92 | The serialized tagged list strips, message by message, to the serialized untagged list. |
| `RoundTrip.StripRequest` | src/PipelinePolicy/MultiTenantPolicy.cs:86-92 | Stripping the tagged request text gives the text of the untagged request. |
| `RoundTrip.DecodeTagged` | src/PipelinePolicy/MultiTenantPolicy.cs:55-95 | The decoder recovers the tagging id from a tagged request. |
| `RoundTrip.TagThenDecode` | src/PipelinePolicy/MultiTenantPolicy.cs:55-95 | Tag then decode yields the tenant id together with the request in which every system message holds the first system message's original content. |
| `RoundTrip.PolicyOnTaggedRequest` | src/PipelinePolicy/MultiTenantPolicy.cs:9-33 | On a tagged request the policy sends on the untagged text, and a complete run logs the tagging tenant. |
| `RoundTrip.ForwardsCallerRequest` | src/PipelinePolicy/MultiTenantPolicy.cs:55-95 | When the system messages agree, the forwarded text is exactly the request the caller wrote. |
| `RoundTrip.SingleSystemMessage` | src/PipelinePolicy/MultiTenantPolicy.cs:55-95 | A request holding only its system prompt is forwarded exactly as written, under the tagging tenant. |

## Left out

- HTTP plumbing is not modelled: `HttpMessage`, `RequestContent`, `WriteToAsync`, `StreamReader`, UTF-8 encoding and decoding, byte-order marks, and cancellation tokens. Request and response bodies are modelled as text.
- JSON parsing is a parameter. The SDK's serializer is modelled by `Wire`, reduced to the `messages` part of the request the SDK writes. Other request fields (temperature, name, function calls) are not modelled.
- A message with null content is not modelled; `Tagger.ChatMessage` always holds text.
- `Task`, `Wait()` and `.Result` wrap exceptions of the synchronous path in `AggregateException`. The model records the inner exception for both paths.
- An exception raised by the rest of the pipeline (`ProcessNext`) is not modelled: `next` always returns.
- `LogRequestAndTokenUsage` is the log step's payload; writing to the console is left out.
- The sample console client (`Program.cs`) is left out, apart from its tenant id.
- Text.IndexOf: compares ordinally. .NET's `IndexOf(string)` is culture-sensitive. It skips characters a culture ignores, and it also refuses a match that ends inside a grapheme cluster. For example, a delimiter followed by a combining mark, a zero-width joiner or a variation selector is not found there, even though the ordinal `Contains` finds it.
- Text.Substring: indices count Unicode scalar values, as Dafny's `string` does. .NET's `IndexOf` and `Substring` count UTF-16 code units. So when a character outside the Basic Multilingual Plane comes before the marker, the as-written slice differs from the model's: it overruns by that many extra code units, not characters. Content written by the tagger is unaffected, because the template sits at offset 0 and the ids are ASCII.
- JsonModel.Esc: escapes `<`, `>`, `"`, `&`, `'`, `+`, backquote and backslash. The encoder also escapes control and non-ASCII characters, which the model writes verbatim. So the round-trip lemmas assume the escaped content holds no marker, rather than computing it.
- JsonModel.GetProperty: matches names exactly. `PropertyNameCaseInsensitive` on lines 66 and 112 does not affect `JsonElement.GetProperty`, so case-insensitive matching is not modelled.
- RoundTrip.TagThenDecode: assumes a tenant id of ASCII letters, digits and dashes. An id containing `<` or a character the encoder escapes would not round-trip, because the policy builds the deleted literal from the unescaped id. The lemma is proved for the ordinal search. Under .NET's culture-sensitive `IndexOf`, a first system prompt that begins with a character extending the preceding grapheme (a combining mark, a zero-width joiner, a variation selector) hides the closing delimiter. The code then raises `ArgumentOutOfRangeException` at the slice instead of decoding. The same holds for `RoundTrip.DecodeTagged`, `RoundTrip.PolicyOnTaggedRequest`, `RoundTrip.ForwardsCallerRequest` and `RoundTrip.SingleSystemMessage`.

Four behaviours of the code that a reader might not expect are modelled as they are:

- `GetTokenUsage` raises `KeyNotFoundException` when the response has no `usage`; it does not count zero.
- `GetAndRemoveTenantId` raises `InvalidOperationException` when the request has no system message; it does not decode to `""`.
- The tagger adds no marker-only system message when the request has none.
- The tagger clears and refills the caller's message list, so the caller sees the tagged list afterwards.

## Findings

| source | as written | input that shows it | evidently intended | confidence | as-written member | corrected member |
|---|---|---|---|---|---|---|
| src/PipelinePolicy/MultiTenantPolicy.cs:80-83 | `Substring(IndexOf(open) + 12, IndexOf(close) - 12)`: the length ignores where the opening delimiter starts | system content `x{{<TenantId>ab</TenantId>}}` gives the id `ab<` instead of `ab` | length `IndexOf(close) - IndexOf(open) - 12`, the text strictly between the delimiters | high for the slice arithmetic; not executed | `Codec.ExtractTenantId` and `Codec.DecodeMarker`, with `Codec.LeadingCharOverrun`, `Codec.OffsetOverruns` and `Codec.DecodeLeadingChar` | `Codec.ExtractTenantIdBetween` and `Codec.DecodeMarkerIntended`, with `Codec.MarkerAnywhere` and `Codec.IntendedDecodeAnywhere` |

The policy (`Codec.GetAndRemoveTenantId`, `Policy.Process`, `Policy.ProcessAsync`) runs the decoder as written. On requests the tagger produces, the template opens the system content, and there the two decoders agree (`Codec.DecodersAgreeAtStart`). So the round-trip lemmas hold of the code as written, for the ordinal search. They do not hold for a first system prompt that begins with a grapheme-extending character (see `RoundTrip.TagThenDecode` under Left out).

=== FILE: base.dfy ===
/**
 * The two shapes of answer the .NET code gives: a reference that may be
 * `null`, and a value or the exception thrown instead of it.
 */
module Wrappers {

  /** A string or stream reference that may be `null`. */
  datatype Option<T> = None | Some(value: T) {

    /** C#'s `x ?? fallback`. */
    function ValueOr(fallback: T): T {
      if Some? then value else fallback
    }
  }

  /**
   * A computed value, or the exception that ended the computation; usable
   * with `:-`, which stops at the first exception as a `throw` would.
   */
  datatype Result<T, E> = Success(value: T) | Failure(error: E) {

    predicate IsFailure() {
      Failure?
    }

    function PropagateFailure<U>(): Result<U, E>
      requires Failure?
    {
      Failure(error)
    }

    function Extract(): T
      requires Success?
    {
      value
    }
  }
}

/** The exceptions the modelled code can raise, named after their .NET types. */
module Exceptions {

  datatype Exception =
    | JsonParse            // JsonSerializer.Deserialize on text that is not JSON
    | InvalidOperation     // a JsonElement accessor used on the wrong kind of value
    | KeyNotFound(name: string)   // JsonElement.GetProperty on a missing name
    | Format               // JsonElement.GetInt16 on a number outside Int16
    | ArgumentOutOfRange   // String.Substring with an out-of-range slice
}

=== FILE: codec.dfy ===
/**
 * The policy's marker decoder, `GetAndRemoveTenantId`: read the raw request
 * text, find the first system message of the parsed `messages` array, take
 * the tenant id out of its content and delete the escaped marker from the raw
 * text. The index arithmetic is modelled as written, including the slice
 * length that ignores where the opening delimiter starts;
 * `ExtractTenantIdBetween` and `DecodeMarkerIntended` are the slice and the
 * decoder that were evidently intended.
 */
module Codec {
  import opened Wrappers
  import opened Exceptions
  import opened Text
  import opened JsonModel
  import opened Marker

  /** The decoder's answer: the tenant id and the request text to forward. */
  datatype Decoded = Decoded(tenantId: string, requestContent: string)

  /** `JsonSerializer.Deserialize<JsonElement>` over an abstract parser; text it rejects throws. */
  function Parse(parse: string -> Option<Json>, text: string): (r: Result<Json, Exception>)
    ensures r.Success? <==> parse(text).Some?
    ensures r.Success? ==> parse(text) == Some(r.value)
    ensures r.Failure? ==> r.error == JsonParse
  {
    match parse(text)
    case Some(doc) => Success(doc)
    case None => Failure(JsonParse)
  }

  /** An array element whose `role` is the JSON string "system". */
  predicate IsSystemItem(e: Json) {
    GetProperty(e, "role") == Success(JString("system"))
  }

  /** An element the `Where` filter reads without throwing and rejects. */
  predicate PassedOver(e: Json) {
    && GetProperty(e, "role").Success?
    && GetString(GetProperty(e, "role").value).Success?
    && !IsSystemItem(e)
  }

  /** Index `k` holds the first system element, and every element before it is passed over. */
  predicate FirstSystemElementAt(items: seq<Json>, k: int) {
    && 0 <= k < |items|
    && IsSystemItem(items[k])
    && forall j :: 0 <= j < k ==> PassedOver(items[j])
  }

  /** `.Select(x => x.GetProperty("content"))` followed by `.GetString()` on one element. */
  function ReadContent(e: Json): Result<Option<string>, Exception> {
    var content :- GetProperty(e, "content");
    GetString(content)
  }

  /**
   * `Where(role == "system").Select(content).FirstOrDefault().GetString()`:
   * the content of the first system element; with no system element the
   * default `JsonElement` is read, which throws.
   */
  function FirstSystemContent(items: seq<Json>): (r: Result<Option<string>, Exception>)
    ensures forall k :: FirstSystemElementAt(items, k) ==> r == ReadContent(items[k])
    ensures (forall j :: 0 <= j < |items| ==> PassedOver(items[j])) ==> r == Failure(InvalidOperation)
    ensures r.Success? ==> exists k :: FirstSystemElementAt(items, k) && ReadContent(items[k]) == r
    decreases |items|
  {
    if |items| == 0 then Failure(InvalidOperation)
    else
      var role :- GetProperty(items[0], "role");
      var name :- GetString(role);
      if name == Some("system") then ReadContent(items[0])
      else
        var r := FirstSystemContent(items[1..]);
        FirstSystemShift(items);
        r
  }

  /** How `FirstSystemElementAt` on `items` relates to `FirstSystemElementAt` on `items[1..]`. */
  lemma {:induction false} FirstSystemShift(items: seq<Json>)
    requires |items| > 0 && PassedOver(items[0])
    ensures forall k :: FirstSystemElementAt(items, k) ==> k > 0 && FirstSystemElementAt(items[1..], k - 1)
    ensures forall k :: FirstSystemElementAt(items[1..], k) ==> FirstSystemElementAt(items, k + 1)
    ensures (forall j :: 0 <= j < |items| ==> PassedOver(items[j]))
            ==> forall j :: 0 <= j < |items[1..]| ==> PassedOver(items[1..][j])
  {
    forall k | FirstSystemElementAt(items[1..], k)
      ensures FirstSystemElementAt(items, k + 1)
    {
      forall j | 0 <= j < k + 1
        ensures PassedOver(items[j])
      {
        if j > 0 {
          assert items[j] == items[1..][j - 1];
        }
      }
    }
    forall k | FirstSystemElementAt(items, k)
      ensures k > 0 && FirstSystemElementAt(items[1..], k - 1)
    {
      assert k != 0;
      forall j | 0 <= j < k - 1
        ensures PassedOver(items[1..][j])
      {
        assert items[1..][j] == items[j + 1];
      }
    }
  }

  /** Both delimiters occur in the system content: the guard of the marker branch. */
  predicate HasDelimiters(system: string) {
    0 <= IndexOf(system, Open) && 0 <= IndexOf(system, Close)
  }

  /**
   * The slice of `MultiTenantPolicy.GetAndRemoveTenantId`, as written: start after the opening delimiter, but take
   * `IndexOf(close) - 12` characters whatever the opening offset.
   */
  function ExtractTenantId(system: string): (r: Result<string, Exception>)
    ensures var o, c := IndexOf(system, Open), IndexOf(system, Close);
            && (r.Success? <==> 12 <= c && o + c <= |system|)
            && (r.Failure? ==> r.error == ArgumentOutOfRange)
            && (r.Success? ==> |r.value| == c - 12 && OccursAt(system, r.value, o + 12))
  {
    Substring(system, IndexOf(system, Open) + 12, IndexOf(system, Close) - 12)
  }

  /**
   * The slice evidently intended: exactly the text between the first opening
   * delimiter and the first closing delimiter.
   */
  function ExtractTenantIdBetween(system: string): (r: Result<string, Exception>)
    requires HasDelimiters(system)
    ensures var o, c := IndexOf(system, Open), IndexOf(system, Close);
            && (r.Success? <==> o + 12 <= c)
            && (r.Failure? ==> r.error == ArgumentOutOfRange)
            && (r.Success? ==> OccursAt(system, Open, o) && r.value == system[o + 12..c] && OccursAt(system, Close, c))
  {
    Substring(system, IndexOf(system, Open) + 12, IndexOf(system, Close) - IndexOf(system, Open) - 12)
  }

  /** With the opening delimiter at offset 0 the written slice is the intended one. */
  lemma AtStartBothAgree(system: string)
    requires HasDelimiters(system)
    requires IndexOf(system, Open) == 0
    ensures ExtractTenantId(system) == ExtractTenantIdBetween(system)
  {
  }

  /**
   * With the opening delimiter at offset `o > 0`, a successful slice runs `o`
   * characters past the intended id, into the closing delimiter: the
   * extracted id is the intended one followed by `<` and more.
   */
  lemma OffsetOverruns(system: string)
    requires HasDelimiters(system)
    requires 0 < IndexOf(system, Open) && IndexOf(system, Open) + 12 <= IndexOf(system, Close)
    requires ExtractTenantId(system).Success?
    ensures var o, c := IndexOf(system, Open), IndexOf(system, Close);
            var id, intended := ExtractTenantId(system).value, ExtractTenantIdBetween(system).value;
            && |id| == |intended| + o
            && id[..|intended|] == intended
            && id[|intended|] == '<'
  {
    var o, c := IndexOf(system, Open), IndexOf(system, Close);
    ExtractAt(system, o, c);
    BetweenAt(system, o, c);
    SliceOverruns(system, o, c);
  }

  /** The slice arithmetic behind `OffsetOverruns`, with the indices as plain numbers. */
  lemma SliceOverruns(s: string, o: int, c: int)
    requires 0 < o && o + 12 <= c && o + c <= |s|
    requires OccursAt(s, Close, c)
    ensures s[o + 12..o + c][..c - o - 12] == s[o + 12..c]
    ensures s[o + 12..o + c][c - o - 12] == '<'
  {
    assert s[c..c + 13][0] == s[c];
  }

  /**
   * One character before the template is enough: the extracted id picks up
   * the `<` that opens the closing delimiter, while the intended slice is the id.
   * With `c` = `x` and the id `ab`, the content `x{{<TenantId>ab</TenantId>}}`
   * yields the id `ab<`.
   */
  lemma LeadingCharOverrun(c: char, tenantId: string)
    requires c != '<' && '<' !in tenantId
    ensures HasDelimiters([c] + Template(tenantId))
    ensures ExtractTenantId([c] + Template(tenantId)) == Success(tenantId + "<")
    ensures ExtractTenantIdBetween([c] + Template(tenantId)) == Success(tenantId)
  {
    var s := [c] + Template(tenantId);
    assert s == [c] + Template(tenantId) + [];
    MarkerAnywhere(s, [c], tenantId, []);
    WrittenOverrun(s, c, tenantId);
  }

  /** The written slice of `LeadingCharOverrun`. */
  lemma WrittenOverrun(s: string, c: char, tenantId: string)
    requires s == [c] + Template(tenantId) + []
    requires c != '<' && '<' !in tenantId
    ensures ExtractTenantId(s) == Success(tenantId + "<")
  {
    var n := |tenantId|;
    assert IndexOf(s, Open) == 1 && IndexOf(s, Close) == 13 + n && s[13..13 + n] == tenantId by {
      DelimiterIndices(s, [c], tenantId, []);
    }
    assert s[13 + n] == '<';
    ExtractAt(s, 1, 13 + n);
    OneOverrun(s, n);
  }

  /** The slice one character too long, spelled out for an opening offset of 1. */
  lemma OneOverrun(s: string, n: nat)
    requires 14 + n <= |s| && s[13 + n] == '<'
    ensures s[13..14 + n] == s[13..13 + n] + "<"
  {
    assert s[13..14 + n] == s[13..13 + n] + [s[13 + n]];
  }

  /** The intended slice once both indices are known. */
  lemma BetweenAt(s: string, o: int, c: int)
    requires IndexOf(s, Open) == o && IndexOf(s, Close) == c
    requires 0 <= o && o + 12 <= c <= |s|
    ensures ExtractTenantIdBetween(s) == Success(s[o + 12..c])
  {
    var r := Substring(s, o + 12, c - o - 12);
    assert r == Success(s[o + 12..o + 12 + (c - o - 12)]);
    assert o + 12 + (c - o - 12) == c;
    assert ExtractTenantIdBetween(s) == r;
  }

  /**
   * Where the policy's `IndexOf` calls land in a text made of a prefix, the
   * template and anything after it, when neither the prefix nor the id
   * contains `<`.
   */
  lemma DelimiterIndices(s: string, prefix: string, tenantId: string, rest: string)
    requires s == prefix + Template(tenantId) + rest
    requires '<' !in prefix && '<' !in tenantId
    ensures IndexOf(s, Open) == |prefix|
    ensures IndexOf(s, Close) == |prefix| + 12 + |tenantId|
    ensures OccursAt(s, Close, |prefix| + 12 + |tenantId|)
    ensures s[|prefix| + 12..|prefix| + 12 + |tenantId|] == tenantId
  {
    TemplateLayout(prefix, tenantId, rest);
    OpenIndex(prefix, tenantId, rest);
    CloseIndex(prefix, tenantId, rest);
  }

  /** Character by character, what a prefix followed by the template holds. */
  lemma TemplateLayout(prefix: string, tenantId: string, rest: string)
    ensures var s, p, n := prefix + Template(tenantId) + rest, |prefix|, |tenantId|;
            && |s| == p + 25 + n + |rest|
            && s[p..p + 12] == Open
            && s[p + 12..p + 12 + n] == tenantId
            && s[p + 12 + n..p + 25 + n] == Close
            && (forall i :: 0 <= i < p ==> s[i] == prefix[i])
            && (forall i :: p <= i < p + 12 ==> s[i] == Open[i - p])
            && (forall i :: p + 12 <= i < p + 12 + n ==> s[i] == tenantId[i - p - 12])
  {
    var t := Template(tenantId);
    var s, p, n := prefix + t + rest, |prefix|, |tenantId|;
    assert s[p..p + 25 + n] == t;
    assert s[p..p + 12] == t[..12];
    assert s[p + 12..p + 12 + n] == t[12..12 + n];
    assert s[p + 12 + n..p + 25 + n] == t[12 + n..];
    forall i | p <= i < p + 12
      ensures s[i] == Open[i - p]
    {
      assert s[i] == s[p..p + 12][i - p];
    }
    forall i | p + 12 <= i < p + 12 + n
      ensures s[i] == tenantId[i - p - 12]
    {
      assert s[i] == s[p + 12..p + 12 + n][i - p - 12];
    }
  }

  lemma OpenIndex(prefix: string, tenantId: string, rest: string)
    requires '<' !in prefix
    ensures OccursAt(prefix + Template(tenantId) + rest, Open, |prefix|)
    ensures IndexOf(prefix + Template(tenantId) + rest, Open) == |prefix|
  {
    TemplateLayout(prefix, tenantId, rest);
    var s, p := prefix + Template(tenantId) + rest, |prefix|;
    forall q | 0 <= q < p
      ensures !OccursAt(s, Open, q)
    {
      if q + 12 <= |s| {
        assert s[q..q + 12][2] == s[q + 2];
      }
      if q + 2 < p {
        assert s[q + 2] == prefix[q + 2] != '<';
      } else {
        assert s[q + 2] == Open[q + 2 - p] != '<';
      }
    }
    IndexOfFirst(s, Open, p);
  }

  lemma CloseIndex(prefix: string, tenantId: string, rest: string)
    requires '<' !in prefix && '<' !in tenantId
    ensures OccursAt(prefix + Template(tenantId) + rest, Close, |prefix| + 12 + |tenantId|)
    ensures IndexOf(prefix + Template(tenantId) + rest, Close) == |prefix| + 12 + |tenantId|
  {
    TemplateLayout(prefix, tenantId, rest);
    var s, p, n := prefix + Template(tenantId) + rest, |prefix|, |tenantId|;
    forall q | 0 <= q < p + 12 + n
      ensures !OccursAt(s, Close, q)
    {
      CloseNotBefore(s, prefix, tenantId, q);
    }
    IndexOfFirst(s, Close, p + 12 + n);
  }

  /** No closing delimiter starts in the prefix, the opening delimiter or the id. */
  lemma CloseNotBefore(s: string, prefix: string, tenantId: string, q: int)
    requires '<' !in prefix && '<' !in tenantId
    requires var p, n := |prefix|, |tenantId|;
             && p + 12 + n <= |s|
             && (forall i :: 0 <= i < p ==> s[i] == prefix[i])
             && (forall i :: p <= i < p + 12 ==> s[i] == Open[i - p])
             && (forall i :: p + 12 <= i < p + 12 + n ==> s[i] == tenantId[i - p - 12])
    requires 0 <= q < |prefix| + 12 + |tenantId|
    ensures !OccursAt(s, Close, q)
  {
    var p := |prefix|;
    if q < p {
      assert s[q] == prefix[q] != '<';
    } else if q == p + 2 {
      assert s[q + 1] == Open[3] != '/';
    } else if q < p + 12 {
      assert s[q] == Open[q - p] != '<';
    } else {
      assert s[q] == tenantId[q - p - 12] != '<';
    }
    CloseHead(s, q);
  }

  /** The closing delimiter cannot start where the text does not read `</`. */
  lemma CloseHead(s: string, q: int)
    requires 0 <= q < |s|
    requires s[q] != '<' || (q + 1 < |s| && s[q + 1] != '/')
    ensures !OccursAt(s, Close, q)
  {
    if q + 13 <= |s| {
      assert s[q..q + 13][0] == s[q] && s[q..q + 13][1] == s[q + 1];
    }
  }

  /** The `Replace` of `MultiTenantPolicy.GetAndRemoveTenantId`: delete every occurrence of the escaped marker from the raw text. */
  function StripMarker(jsonContent: string, tenantId: string): (r: string)
    ensures |r| <= |jsonContent|
    ensures !Contains(jsonContent, EscapedTemplate(tenantId)) ==> r == jsonContent
  {
    ReplaceAllLength(jsonContent, EscapedTemplate(tenantId), "");
    ReplaceAllAbsent(jsonContent, EscapedTemplate(tenantId), "");
    ReplaceAll(jsonContent, EscapedTemplate(tenantId), "")
  }

  /** With exactly one occurrence of the escaped marker, exactly that slice is deleted. */
  lemma StripSingle(jsonContent: string, tenantId: string, p: int)
    requires OccursAt(jsonContent, EscapedTemplate(tenantId), p)
    requires forall q :: 0 <= q < |jsonContent| && q != p ==> !OccursAt(jsonContent, EscapedTemplate(tenantId), q)
    ensures StripMarker(jsonContent, tenantId)
         == jsonContent[..p] + jsonContent[p + |EscapedTemplate(tenantId)|..]
  {
    ReplaceAllSingle(jsonContent, EscapedTemplate(tenantId), "", p);
  }

  /**
   * The marker branch of `MultiTenantPolicy.GetAndRemoveTenantId`, as written: when both delimiters occur, slice the tenant id
   * with `ExtractTenantId` (an out-of-range slice throws) and delete its
   * escaped marker from the raw text; otherwise the tenant id is empty and
   * the text is forwarded as received.
   */
  function DecodeMarker(system: string, jsonContent: string): (r: Result<Decoded, Exception>)
    ensures !(Contains(system, Open) && Contains(system, Close)) ==> r == Success(Decoded("", jsonContent))
    ensures Contains(system, Open) && Contains(system, Close) ==>
              var o, c := IndexOf(system, Open), IndexOf(system, Close);
              && (r.Success? <==> 12 <= c && o + c <= |system|)
              && (r.Success? ==> && |r.value.tenantId| == c - 12
                                 && OccursAt(system, r.value.tenantId, o + 12)
                                 && r.value.requestContent == StripMarker(jsonContent, r.value.tenantId))
    ensures r.Failure? ==> r.error == ArgumentOutOfRange
    ensures r.Success? ==> |r.value.requestContent| <= |jsonContent|
    ensures r.Success? && !Contains(jsonContent, EscapedTemplate(r.value.tenantId))
            ==> r.value.requestContent == jsonContent
  {
    if Contains(system, Open) && Contains(system, Close) then
      var tenantId :- ExtractTenantId(system);
      Success(Decoded(tenantId, StripMarker(jsonContent, tenantId)))
    else
      Success(Decoded("", jsonContent))
  }

  /** The decoder evidently intended: the same steps with `ExtractTenantIdBetween` as the slice. */
  function DecodeMarkerIntended(system: string, jsonContent: string): (r: Result<Decoded, Exception>)
    ensures !(Contains(system, Open) && Contains(system, Close)) ==> r == Success(Decoded("", jsonContent))
    ensures Contains(system, Open) && Contains(system, Close) ==>
              var o, c := IndexOf(system, Open), IndexOf(system, Close);
              && (r.Success? <==> o + 12 <= c)
              && (r.Success? ==> && OccursAt(system, Open, o) && OccursAt(system, Close, c)
                                 && r.value.tenantId == system[o + 12..c]
                                 && r.value.requestContent == StripMarker(jsonContent, r.value.tenantId))
    ensures r.Failure? ==> r.error == ArgumentOutOfRange
  {
    if Contains(system, Open) && Contains(system, Close) then
      var tenantId :- ExtractTenantIdBetween(system);
      Success(Decoded(tenantId, StripMarker(jsonContent, tenantId)))
    else
      Success(Decoded("", jsonContent))
  }

  /** With the opening delimiter at offset 0, or absent, the written decoder is the intended one. */
  lemma DecodersAgreeAtStart(system: string, jsonContent: string)
    requires IndexOf(system, Open) <= 0
    ensures DecodeMarker(system, jsonContent) == DecodeMarkerIntended(system, jsonContent)
  {
    if HasDelimiters(system) {
      AtStartBothAgree(system);
    }
  }

  /**
   * The written decoder on `x{{<TenantId>ab</TenantId>}}`-shaped content: the
   * tenant id picks up the `<` after it, and the literal deleted from the raw
   * text is built from that longer id.
   */
  lemma DecodeLeadingChar(c: char, tenantId: string, jsonContent: string)
    requires c != '<' && '<' !in tenantId
    ensures DecodeMarker([c] + Template(tenantId), jsonContent)
         == Success(Decoded(tenantId + "<", StripMarker(jsonContent, tenantId + "<")))
    ensures DecodeMarkerIntended([c] + Template(tenantId), jsonContent)
         == Success(Decoded(tenantId, StripMarker(jsonContent, tenantId)))
  {
    LeadingCharOverrun(c, tenantId);
  }

  /** The intended decoder finds the id of a template wherever it stands. */
  lemma IntendedDecodeAnywhere(prefix: string, tenantId: string, rest: string, jsonContent: string)
    requires '<' !in prefix && '<' !in tenantId
    ensures DecodeMarkerIntended(prefix + Template(tenantId) + rest, jsonContent)
         == Success(Decoded(tenantId, StripMarker(jsonContent, tenantId)))
  {
    MarkerAnywhere(prefix + Template(tenantId) + rest, prefix, tenantId, rest);
  }

  /** The written slice once both indices are known. */
  lemma ExtractAt(s: string, o: int, c: int)
    requires IndexOf(s, Open) == o && IndexOf(s, Close) == c
    requires 12 <= c && 0 <= o && o + c <= |s|
    ensures ExtractTenantId(s) == Success(s[o + 12..o + c])
  {
    var r := Substring(s, o + 12, c - 12);
    assert r == Success(s[o + 12..o + 12 + (c - 12)]);
    assert o + 12 + (c - 12) == o + c;
    assert ExtractTenantId(s) == r;
  }

  /** Where the two delimiters start in a system content that begins with the template. */
  lemma TemplateAtStart(tenantId: string, rest: string)
    requires '<' !in tenantId
    ensures IndexOf(Template(tenantId) + rest, Open) == 0
    ensures IndexOf(Template(tenantId) + rest, Close) == 12 + |tenantId|
  {
    var s := Template(tenantId) + rest;
    DelimiterIndices(s, [], tenantId, rest);
  }

  /**
   * The intended extraction finds the id of a template wherever it starts,
   * as long as neither the text before it nor the id contains `<`.
   */
  lemma MarkerAnywhere(s: string, prefix: string, tenantId: string, rest: string)
    requires s == prefix + Template(tenantId) + rest
    requires '<' !in prefix && '<' !in tenantId
    ensures HasDelimiters(s)
    ensures ExtractTenantIdBetween(s) == Success(tenantId)
  {
    var o, n := |prefix|, |tenantId|;
    DelimiterIndices(s, prefix, tenantId, rest);
    BetweenFound(s, o, n, tenantId);
  }

  lemma BetweenFound(s: string, o: int, n: int, tenantId: string)
    requires IndexOf(s, Open) == o && IndexOf(s, Close) == o + 12 + n
    requires 0 <= o && 0 <= n && o + 12 + n <= |s|
    requires s[o + 12..o + 12 + n] == tenantId
    ensures HasDelimiters(s)
    ensures ExtractTenantIdBetween(s) == Success(tenantId)
  {
    BetweenAt(s, o, o + 12 + n);
  }

  /** Decoding such a content yields the id and strips its escaped marker from the raw text. */
  lemma DecodeAtStart(tenantId: string, rest: string, jsonContent: string)
    requires '<' !in tenantId
    ensures DecodeMarker(Template(tenantId) + rest, jsonContent)
         == Success(Decoded(tenantId, StripMarker(jsonContent, tenantId)))
  {
    var system := Template(tenantId) + rest;
    TemplateAtStart(tenantId, rest);
    MarkerAnywhere(system, [], tenantId, rest);
    AtStartBothAgree(system);
  }

  /**
   * `GetAndRemoveTenantId`: no request content gives `("", "")`; otherwise
   * parse, read `messages`, find the first system content (JSON null reads as
   * the empty string) and decode the marker in it.
   */
  function GetAndRemoveTenantId(content: Option<string>, parse: string -> Option<Json>): (r: Result<Decoded, Exception>)
    ensures content.None? ==> r == Success(Decoded("", ""))
    ensures content.Some? && parse(content.value).None? ==> r == Failure(JsonParse)
    ensures content.Some? && r.Success? ==> |r.value.requestContent| <= |content.value|
    ensures content.Some? && r.Success? && !Contains(content.value, EscapedTemplate(r.value.tenantId))
            ==> r.value.requestContent == content.value
    ensures content.Some? && r.Success? && r.value.tenantId != ""
            ==> r.value.requestContent == StripMarker(content.value, r.value.tenantId)
  {
    if content.None? then Success(Decoded("", ""))
    else
      var jsonContent := content.value;
      var doc :- Parse(parse, jsonContent);
      var messages :- GetProperty(doc, "messages");
      var items :- EnumerateArray(messages);
      var system :- FirstSystemContent(items);
      DecodeMarker(system.ValueOr(""), jsonContent)
  }

  /** The decoder reads the content of the first system message of the parsed `messages` array. */
  lemma DecodesFirstSystemContent(jsonContent: string, parse: string -> Option<Json>, items: seq<Json>, k: int)
    requires parse(jsonContent).Some? && GetProperty(parse(jsonContent).value, "messages") == Success(JArray(items))
    requires FirstSystemElementAt(items, k) && ReadContent(items[k]).Success?
    ensures GetAndRemoveTenantId(Some(jsonContent), parse)
         == DecodeMarker(ReadContent(items[k]).value.ValueOr(""), jsonContent)
  {
  }

  /** A request whose messages hold no system message is an error, not an empty tenant id. */
  lemma NoSystemMessageFails(jsonContent: string, parse: string -> Option<Json>, items: seq<Json>)
    requires parse(jsonContent).Some? && GetProperty(parse(jsonContent).value, "messages") == Success(JArray(items))
    requires forall j :: 0 <= j < |items| ==> PassedOver(items[j])
    ensures GetAndRemoveTenantId(Some(jsonContent), parse) == Failure(InvalidOperation)
  {
  }
}

=== FILE: json.dfy ===
/**
 * A parsed JSON document and the `JsonElement` accessors the policy calls,
 * with the exceptions each one throws; plus the string escaping of the
 * default `System.Text.Json` encoder for the characters that matter here.
 * Parsing itself is not modelled: callers receive it as a function.
 */
module JsonModel {
  import opened Wrappers
  import opened Exceptions

  datatype Json =
    | JNull
    | JInt(n: int)
    | JString(s: string)
    | JArray(items: seq<Json>)
    | JObject(props: seq<Property>)

  datatype Property = Property(name: string, value: Json)

  const Int16Min: int := -32768
  const Int16Max: int := 32767

  /** The index of the last property called `name`, matching names exactly, or -1. */
  function LastIndex(props: seq<Property>, name: string): (r: int)
    ensures -1 <= r < |props|
    ensures r == -1 <==> forall i :: 0 <= i < |props| ==> props[i].name != name
    ensures r >= 0 ==> props[r].name == name
    ensures forall j :: r < j < |props| ==> props[j].name != name
    decreases |props|
  {
    if |props| == 0 then -1
    else if props[|props| - 1].name == name then |props| - 1
    else LastIndex(props[..|props| - 1], name)
  }

  /**
   * `JsonElement.GetProperty(name)`: only objects have properties; a missing
   * name throws. A name defined twice resolves to its last definition.
   */
  function GetProperty(e: Json, name: string): (r: Result<Json, Exception>)
    ensures !e.JObject? ==> r == Failure(InvalidOperation)
    ensures e.JObject? ==> (r.Failure? <==> forall i :: 0 <= i < |e.props| ==> e.props[i].name != name)
    ensures r.Failure? && e.JObject? ==> r.error == KeyNotFound(name)
    ensures r.Success? ==> exists i :: && 0 <= i < |e.props| && e.props[i] == Property(name, r.value)
                                       && forall j :: i < j < |e.props| ==> e.props[j].name != name
  {
    if !e.JObject? then Failure(InvalidOperation)
    else
      var i := LastIndex(e.props, name);
      if i == -1 then Failure(KeyNotFound(name)) else Success(e.props[i].value)
  }

  /** `JsonElement.EnumerateArray()`: only arrays can be enumerated. */
  function EnumerateArray(e: Json): (r: Result<seq<Json>, Exception>)
    ensures r.Success? <==> e.JArray?
    ensures r.Success? ==> e == JArray(r.value)
    ensures r.Failure? ==> r.error == InvalidOperation
  {
    if e.JArray? then Success(e.items) else Failure(InvalidOperation)
  }

  /** `JsonElement.GetString()`: a string, `null` for JSON null, otherwise an exception. */
  function GetString(e: Json): (r: Result<Option<string>, Exception>)
    ensures r.Success? <==> e.JString? || e.JNull?
    ensures r == Success(None) <==> e.JNull?
    ensures r.Success? && r.value.Some? ==> e == JString(r.value.value)
    ensures r.Failure? ==> r.error == InvalidOperation
  {
    match e
    case JString(s) => Success(Some(s))
    case JNull => Success(None)
    case _ => Failure(InvalidOperation)
  }

  predicate InInt16(n: int) {
    Int16Min <= n <= Int16Max
  }

  /**
   * `JsonElement.GetInt16()`: a number that does not fit in 16 bits throws
   * `FormatException`; a value that is not a number throws
   * `InvalidOperationException`.
   */
  function GetInt16(e: Json): (r: Result<int, Exception>)
    ensures r.Success? <==> e.JInt? && InInt16(e.n)
    ensures r.Success? ==> e == JInt(r.value) && InInt16(r.value)
    ensures r.Failure? ==> r.error == (if e.JInt? then Format else InvalidOperation)
  {
    if !e.JInt? then Failure(InvalidOperation)
    else if !InInt16(e.n) then Failure(Format)
    else Success(e.n)
  }

  /**
   * How the default encoder writes one character inside a JSON string: the
   * HTML-sensitive characters and the quote as `\u00XX` (upper-case hex), the
   * backslash doubled. Control and non-ASCII characters, which it also
   * escapes, are not modelled.
   */
  function EscChar(c: char): string {
    match c
    case '<' => "\\u003C"
    case '>' => "\\u003E"
    case '"' => "\\u0022"
    case '&' => "\\u0026"
    case '\'' => "\\u0027"
    case '+' => "\\u002B"
    case '`' => "\\u0060"
    case '\\' => "\\\\"
    case _ => [c]
  }

  /** A character the encoder writes unchanged. */
  predicate Verbatim(c: char) {
    EscChar(c) == [c]
  }

  /** The escaped form of a whole string value, character by character. */
  function Esc(s: string): (r: string)
    ensures |r| >= |s|
    decreases |s|
  {
    if |s| == 0 then "" else EscChar(s[0]) + Esc(s[1..])
  }

  /** Escaping works piecewise: a concatenation escapes to the concatenation of the escapes. */
  lemma {:induction false} EscConcat(a: string, b: string)
    ensures Esc(a + b) == Esc(a) + Esc(b)
    decreases |a|
  {
    if |a| == 0 {
      assert a + b == b;
    } else {
      assert (a + b)[0] == a[0];
      assert (a + b)[1..] == a[1..] + b;
      calc {
        Esc(a + b);
        EscChar(a[0]) + Esc(a[1..] + b);
        { EscConcat(a[1..], b); }
        EscChar(a[0]) + (Esc(a[1..]) + Esc(b));
        Esc(a) + Esc(b);
      }
    }
  }

  /** Text made only of verbatim characters is written unchanged. */
  lemma {:induction false} EscVerbatim(s: string)
    requires forall i :: 0 <= i < |s| ==> Verbatim(s[i])
    ensures Esc(s) == s
    decreases |s|
  {
    if |s| > 0 {
      EscVerbatim(s[1..]);
      assert s == [s[0]] + s[1..];
    }
  }
}

=== FILE: marker.dfy ===
/**
 * The tenant marker shared by the client-side tagger and the pipeline policy:
 * the plain template the tagger prepends to system content, and the escaped
 * literal the policy deletes from the raw request text.
 */
module Marker {
  import opened JsonModel

  /** Opening delimiter; 12 characters, the offset the policy adds to its index. */
  const Open: string := "{{<TenantId>"

  /** Closing delimiter. */
  const Close: string := "</TenantId>}}"

  /** The template the tagger prepends: open delimiter, tenant id, close delimiter. */
  function Template(tenantId: string): (r: string)
    ensures |r| == 25 + |tenantId|
    ensures r[..12] == Open && r[12..12 + |tenantId|] == tenantId && r[12 + |tenantId|..] == Close
  {
    Open + tenantId + Close
  }

  /** How the encoder spells `<` and `>` inside a JSON string. */
  const LtEscape: string := "\\u003C"
  const GtEscape: string := "\\u003E"

  /** The opening delimiter as it appears in serialized request text. */
  const EscapedOpen: string := "{{" + LtEscape + "TenantId" + GtEscape

  /** The closing delimiter as it appears in serialized request text. */
  const EscapedClose: string := LtEscape + "/TenantId" + GtEscape + "}}"

  /**
   * The literal the policy removes: the template with each `<` and `>` of the
   * delimiters spelled as its six-character `\u00XX` escape,
   * the tenant id inserted unescaped.
   */
  function EscapedTemplate(tenantId: string): (r: string)
    ensures |r| == 45 + |tenantId|
  {
    EscapedOpen + tenantId + EscapedClose
  }

  /** Characters of a GUID-like tenant id: ASCII letters, digits and the dash. */
  predicate TenantIdChar(c: char) {
    ('a' <= c <= 'z') || ('A' <= c <= 'Z') || ('0' <= c <= '9') || c == '-'
  }

  predicate IsTenantId(id: string) {
    forall i :: 0 <= i < |id| ==> TenantIdChar(id[i])
  }

  /** The escaped literal is exactly what the encoder writes for the template. */
  lemma EscapedTemplateIsEncoding(tenantId: string)
    requires forall i :: 0 <= i < |tenantId| ==> Verbatim(tenantId[i])
    ensures Esc(Template(tenantId)) == EscapedTemplate(tenantId)
  {
    EscConcat(Open + tenantId, Close);
    EscConcat(Open, tenantId);
    EscOpen();
    EscClose();
    EscVerbatim(tenantId);
  }

  lemma EscOpen()
    ensures Esc(Open) == EscapedOpen
  {
    DelimiterPieces();
    EscConcat("{{" + "<" + "TenantId", ">");
    EscConcat("{{" + "<", "TenantId");
    EscConcat("{{", "<");
    EscBrackets();
    EscWords();
  }

  lemma EscClose()
    ensures Esc(Close) == EscapedClose
  {
    DelimiterPieces();
    EscConcat("<" + "/TenantId" + ">", "}}");
    EscConcat("<" + "/TenantId", ">");
    EscConcat("<", "/TenantId");
    EscBrackets();
    EscWords();
  }

  /** The delimiters cut at their angle brackets. */
  lemma DelimiterPieces()
    ensures Open == "{{" + "<" + "TenantId" + ">"
    ensures Close == "<" + "/TenantId" + ">" + "}}"
  {
  }

  /** The angle brackets are the only delimiter characters the encoder escapes. */
  lemma EscBrackets()
    ensures Esc("<") == LtEscape && Esc(">") == GtEscape
  {
  }

  /** The remaining pieces of the delimiters are written verbatim. */
  lemma EscWords()
    ensures Esc("{{") == "{{" && Esc("}}") == "}}"
    ensures Esc("TenantId") == "TenantId" && Esc("/TenantId") == "/TenantId"
  {
    EscBraces();
    EscName();
  }

  lemma EscBraces()
    ensures Esc("{{") == "{{" && Esc("}}") == "}}"
  {
    EscVerbatim("{{");
    EscVerbatim("}}");
  }

  lemma EscName()
    ensures Esc("TenantId") == "TenantId" && Esc("/TenantId") == "/TenantId"
  {
    EscVerbatim("TenantId");
    EscVerbatim("/TenantId");
  }

  /** Tenant-id characters are written verbatim by the encoder. */
  lemma TenantIdVerbatim(id: string)
    requires IsTenantId(id)
    ensures forall i :: 0 <= i < |id| ==> Verbatim(id[i])
  {
  }

  /** Characters that never occur in the escaped literal of a tenant id. */
  lemma EscapedTemplateLacks(tenantId: string)
    requires IsTenantId(tenantId)
    ensures '"' !in EscapedTemplate(tenantId)
    ensures ',' !in EscapedTemplate(tenantId)
    ensures '[' !in EscapedTemplate(tenantId)
    ensures ']' !in EscapedTemplate(tenantId)
  {
    assert forall i :: 0 <= i < |EscapedOpen| ==> EscapedOpen[i] !in "\",[]";
    assert forall i :: 0 <= i < |EscapedClose| ==> EscapedClose[i] !in "\",[]";
  }
}

=== FILE: policy.dfy ===
/**
 * The pipeline policy's two entry points. `Process` runs the steps in
 * direct style: decode and strip the marker, replace the request content,
 * let the rest of the pipeline send it, read the usage from the response,
 * replace the response stream and log. `ProcessAsync` runs the same steps as
 * a chain of continuations, one per `await`. The rest of the pipeline is a
 * parameter: it receives the request text and yields the response stream's
 * text, or nothing for a null stream.
 */
module Policy {
  import opened Wrappers
  import opened Exceptions
  import opened JsonModel
  import opened Codec
  import opened Usage

  /** The response stream as the policy leaves it. */
  datatype Stream =
    | NoResponse         // the pipeline was never run
    | Holding(text: string)
    | Disposed           // read to the end inside a `using` block, then an exception

  /** The console line the policy writes, field by field. */
  datatype LogEntry = LogEntry(tenantId: string, response: string, total: int, completion: int, prompt: int)

  /** One observable step, in the order the policy takes them. */
  datatype Step =
    | SetRequestContent(body: string)
    | CallNext(body: string)
    | SetResponseStream(text: string)
    | Log(entry: LogEntry)

  /** A run of the policy: its steps, the stream it leaves, and the exception that ended it. */
  datatype Outcome = Outcome(steps: seq<Step>, response: Stream, fault: Option<Exception>)

  /** The position of each kind of step in a complete run. */
  function Rank(s: Step): nat {
    match s
    case SetRequestContent(_) => 0
    case CallNext(_) => 1
    case SetResponseStream(_) => 2
    case Log(_) => 3
  }

  /** The steps are a prefix of the complete run: set, send, replace stream, log. */
  predicate InOrder(steps: seq<Step>) {
    forall i :: 0 <= i < |steps| ==> Rank(steps[i]) == i
  }

  /** The log line for a decoded request and the usage read from its response. */
  function Entry(d: Decoded, u: UsageRead): LogEntry {
    LogEntry(d.tenantId, u.content, u.usage.total, u.usage.completion, u.usage.prompt)
  }

  /** `MultiTenantPolicy.Process`. */
  function Process(content: Option<string>, parse: string -> Option<Json>, next: string -> Option<string>): (o: Outcome)
    ensures InOrder(o.steps)
    ensures o.fault.None? <==> |o.steps| == 4
    ensures o.fault.None? ==> o.response == Holding(o.steps[2].text) && o.steps[3].entry.response == o.steps[2].text
    ensures |o.steps| >= 2 ==> o.steps[0].body == o.steps[1].body
    ensures GetAndRemoveTenantId(content, parse).Failure? <==> o.steps == []
    ensures GetAndRemoveTenantId(content, parse).Failure? ==> o.fault == Some(GetAndRemoveTenantId(content, parse).error)
    ensures forall i :: 0 <= i < |o.steps| && o.steps[i].CallNext?
              ==> && GetAndRemoveTenantId(content, parse).Success?
                  && o.steps[i].body == GetAndRemoveTenantId(content, parse).value.requestContent
  {
    match GetAndRemoveTenantId(content, parse)
    case Failure(e) => Outcome([], NoResponse, Some(e))
    case Success(d) => Forward(d, parse, next)
  }

  /** Everything `MultiTenantPolicy.Process` does once the tenant id is decoded. */
  function Forward(d: Decoded, parse: string -> Option<Json>, next: string -> Option<string>): (o: Outcome)
    ensures InOrder(o.steps) && |o.steps| >= 2
    ensures o.steps[..2] == [SetRequestContent(d.requestContent), CallNext(d.requestContent)]
    ensures o.fault.None? <==> |o.steps| == 4
    ensures o.fault.None? ==> && o.response == Holding(o.steps[2].text)
                              && o.steps[3].entry.response == o.steps[2].text
                              && o.steps[3].entry.tenantId == d.tenantId
  {
    var sent := [SetRequestContent(d.requestContent), CallNext(d.requestContent)];
    match GetUsage(next(d.requestContent), parse)
    case Failure(e) => Outcome(sent, Disposed, Some(e))
    case Success(u) =>
      Outcome(sent + [SetResponseStream(u.content), Log(Entry(d, u))], Holding(u.content), None)
  }

  /** The request text sent on is never longer than the one received. */
  lemma ForwardedNotLonger(content: string, parse: string -> Option<Json>, next: string -> Option<string>)
    requires GetAndRemoveTenantId(Some(content), parse).Success?
    ensures |Process(Some(content), parse, next).steps[1].body| <= |content|
  {
  }

  /** A request without content is sent on as the empty text, with no tenant. */
  lemma NullContentSendsEmpty(parse: string -> Option<Json>, next: string -> Option<string>)
    ensures |Process(None, parse, next).steps| >= 2
    ensures Process(None, parse, next).steps[1] == CallNext("")
    ensures Process(None, parse, next).fault.None? ==> Process(None, parse, next).steps[3].entry.tenantId == ""
  {
  }

  /** Once decoding succeeds, the decoded text is sent on and a complete run logs the decoded tenant. */
  lemma ForwardsDecoded(content: Option<string>, parse: string -> Option<Json>, next: string -> Option<string>)
    requires GetAndRemoveTenantId(content, parse).Success?
    ensures var o, d := Process(content, parse, next), GetAndRemoveTenantId(content, parse).value;
            && |o.steps| >= 2
            && o.steps[..2] == [SetRequestContent(d.requestContent), CallNext(d.requestContent)]
            && (o.fault.None? ==> o.steps[3].entry.tenantId == d.tenantId)
  {
  }

  /** A null response stream is logged as zero usage and replaced by an empty stream. */
  lemma NullStreamLogsZero(content: Option<string>, parse: string -> Option<Json>, next: string -> Option<string>)
    requires GetAndRemoveTenantId(content, parse).Success?
    requires next(GetAndRemoveTenantId(content, parse).value.requestContent).None?
    ensures Process(content, parse, next).fault.None?
    ensures Process(content, parse, next).response == Holding("")
    ensures Process(content, parse, next).steps[3].entry
         == LogEntry(GetAndRemoveTenantId(content, parse).value.tenantId, "", 0, 0, 0)
  {
  }

  /** A complete run logs the decoded tenant and the usage the response reports. */
  lemma LogsDecodedTenantAndUsage(content: Option<string>, parse: string -> Option<Json>, next: string -> Option<string>)
    requires Process(content, parse, next).fault.None?
    ensures var o, d := Process(content, parse, next), GetAndRemoveTenantId(content, parse).value;
            var e, response := o.steps[3].entry, next(d.requestContent);
            && e.tenantId == d.tenantId
            && e.response == response.ValueOr("")
            && (response.Some? ==> Reports(parse(response.value).value, TokenUsage(e.total, e.completion, e.prompt)))
  {
  }

  /** Where `ProcessAsync` stands between two `await`s. */
  datatype Stage =
    | Start
    | Stripped(decoded: Decoded)
    | Responded(decoded: Decoded, stream: Option<string>)
    | UsageKnown(decoded: Decoded, read: UsageRead)
    | Done(fault: Option<Exception>)

  datatype Machine = Machine(stage: Stage, steps: seq<Step>, response: Stream)

  function StageRank(s: Stage): nat {
    match s
    case Start => 0
    case Stripped(_) => 1
    case Responded(_, _) => 2
    case UsageKnown(_, _) => 3
    case Done(_) => 4
  }

  /** The continuation after one `await` of `MultiTenantPolicy.ProcessAsync`: it only appends steps. */
  function Resume(m: Machine, content: Option<string>, parse: string -> Option<Json>, next: string -> Option<string>): (r: Machine)
    requires !m.stage.Done?
    ensures StageRank(r.stage) > StageRank(m.stage)
    ensures m.steps <= r.steps
  {
    match m.stage
    case Start =>
      (match GetAndRemoveTenantId(content, parse)
       case Failure(e) => Machine(Done(Some(e)), m.steps, m.response)
       case Success(d) => Machine(Stripped(d), m.steps, m.response))
    case Stripped(d) =>
      Machine(Responded(d, next(d.requestContent)),
              m.steps + [SetRequestContent(d.requestContent), CallNext(d.requestContent)], m.response)
    case Responded(d, stream) =>
      (match GetUsage(stream, parse)
       case Failure(e) => Machine(Done(Some(e)), m.steps, Disposed)
       case Success(u) => Machine(UsageKnown(d, u), m.steps, m.response))
    case UsageKnown(d, u) =>
      Machine(Done(None), m.steps + [SetResponseStream(u.content), Log(Entry(d, u))], Holding(u.content))
  }

  /** The machine is where a run of `Process` on the same inputs would be at its stage. */
  predicate OnTrack(m: Machine, content: Option<string>, parse: string -> Option<Json>, next: string -> Option<string>) {
    match m.stage
    case Start => m.steps == [] && m.response == NoResponse
    case Stripped(d) =>
      && GetAndRemoveTenantId(content, parse) == Success(d)
      && m.steps == [] && m.response == NoResponse
    case Responded(d, stream) =>
      && GetAndRemoveTenantId(content, parse) == Success(d)
      && stream == next(d.requestContent)
      && m.steps == [SetRequestContent(d.requestContent), CallNext(d.requestContent)]
      && m.response == NoResponse
    case UsageKnown(d, u) =>
      && GetAndRemoveTenantId(content, parse) == Success(d)
      && GetUsage(next(d.requestContent), parse) == Success(u)
      && m.steps == [SetRequestContent(d.requestContent), CallNext(d.requestContent)]
      && m.response == NoResponse
    case Done(fault) => Outcome(m.steps, m.response, fault) == Process(content, parse, next)
  }

  /** Each continuation keeps the machine on the track of `Process`. */
  lemma ResumeOnTrack(m: Machine, content: Option<string>, parse: string -> Option<Json>, next: string -> Option<string>)
    requires !m.stage.Done? && OnTrack(m, content, parse, next)
    ensures OnTrack(Resume(m, content, parse, next), content, parse, next)
  {
  }

  /**
   * `MultiTenantPolicy.ProcessAsync`: resume after each `await` until done. It
   * takes the same steps, leaves the same stream and raises the same
   * exception as `Process`.
   */
  method ProcessAsync(content: Option<string>, parse: string -> Option<Json>, next: string -> Option<string>)
    returns (o: Outcome)
    ensures o == Process(content, parse, next)
  {
    var m := Machine(Start, [], NoResponse);
    while !m.stage.Done?
      invariant OnTrack(m, content, parse, next)
      decreases 4 - StageRank(m.stage)
    {
      ResumeOnTrack(m, content, parse, next);
      m := Resume(m, content, parse, next);
    }
    o := Outcome(m.steps, m.response, m.stage.fault);
  }
}

=== FILE: roundtrip.dfy ===
/**
 * The tagger and the policy composed: a request tagged on the client with a
 * well-formed tenant id is decoded by the policy to that tenant id, and the
 * text it forwards is the serialized request with the template gone from
 * every system message.
 */
module RoundTrip {
  import opened Wrappers
  import opened Text
  import opened JsonModel
  import opened Marker
  import Tagger
  import opened Wire
  import Codec
  import Policy

  /** No message content, once escaped, already holds the escaped marker. */
  predicate MarkerFree(tenantId: string, msgs: seq<Tagger.ChatMessage>) {
    forall i :: 0 <= i < |msgs| ==> !Contains(Esc(msgs[i].content), EscapedTemplate(tenantId))
  }

  /** How the decoder reads one parsed message. */
  lemma MessageDocRead(m: Tagger.ChatMessage)
    ensures Codec.IsSystemItem(MessageDoc(m)) <==> m.role == Tagger.System
    ensures m.role != Tagger.System ==> Codec.PassedOver(MessageDoc(m))
    ensures Codec.ReadContent(MessageDoc(m)) == Success(Some(m.content))
  {
    var props := MessageDoc(m).props;
    assert props[1].name == "content" && props[0].name == "role";
    assert GetProperty(MessageDoc(m), "role") == Success(JString(RoleName(m.role)));
    assert GetProperty(MessageDoc(m), "content") == Success(JString(m.content));
  }

  /** The first system message of a list is the first system element of its parsed form. */
  lemma FirstSystemDoc(msgs: seq<Tagger.ChatMessage>, k: int)
    requires Tagger.FirstSystemAt(msgs, k)
    ensures Codec.FirstSystemElementAt(MessageDocs(msgs), k)
    ensures Codec.ReadContent(MessageDocs(msgs)[k]) == Success(Some(msgs[k].content))
  {
    forall j | 0 <= j < k
      ensures Codec.PassedOver(MessageDocs(msgs)[j])
    {
      MessageDocRead(msgs[j]);
    }
    MessageDocRead(msgs[k]);
  }

  /** In the parsed tagged request, the first system element holds the template and the original content. */
  lemma TaggedFirstSystemDoc(tenantId: string, msgs: seq<Tagger.ChatMessage>, k: int)
    requires Tagger.FirstSystemAt(msgs, k)
    ensures Codec.FirstSystemElementAt(MessageDocs(Tagger.Tag(tenantId, msgs)), k)
    ensures Codec.ReadContent(MessageDocs(Tagger.Tag(tenantId, msgs))[k])
         == Success(Some(Template(tenantId) + msgs[k].content))
  {
    Tagger.TagFirstSystem(tenantId, msgs, k);
    FirstSystemDoc(Tagger.Tag(tenantId, msgs), k);
  }

  /** Text shorter than the escaped marker is left alone by the strip. */
  lemma ShortUnchanged(s: string, tenantId: string)
    requires |s| < 45
    ensures ReplaceAll(s, EscapedTemplate(tenantId), "") == s
  {
    ShortTextLacks(s, EscapedTemplate(tenantId));
    ReplaceAllAbsent(s, EscapedTemplate(tenantId), "");
  }

  /** Stripping a serialized message touches only its content. */
  lemma StripMessage(tenantId: string, role: Tagger.Role, e: string)
    requires IsTenantId(tenantId)
    ensures ReplaceAll(MessageOpen(role) + e + MessageClose, EscapedTemplate(tenantId), "")
         == MessageOpen(role) + ReplaceAll(e, EscapedTemplate(tenantId), "") + MessageClose
  {
    var pattern := EscapedTemplate(tenantId);
    var a := MessageOpen(role);
    EscapedTemplateLacks(tenantId);
    NoStraddleRight(a + e, MessageClose, pattern);
    ReplaceAllConcat(a + e, MessageClose, pattern, "");
    NoStraddleLeft(a, e, pattern);
    ReplaceAllConcat(a, e, pattern, "");
    ShortUnchanged(a, tenantId);
    ShortUnchanged(MessageClose, tenantId);
  }

  /** The escaped content of a tagged system message loses exactly its leading marker. */
  lemma StripTaggedContent(tenantId: string, content: string)
    requires IsTenantId(tenantId)
    requires !Contains(Esc(content), EscapedTemplate(tenantId))
    ensures ReplaceAll(Esc(Template(tenantId) + content), EscapedTemplate(tenantId), "") == Esc(content)
  {
    var pattern := EscapedTemplate(tenantId);
    EscConcat(Template(tenantId), content);
    TenantIdVerbatim(tenantId);
    EscapedTemplateIsEncoding(tenantId);
    ReplaceAllFront(pattern, Esc(content), "");
    ReplaceAllAbsent(Esc(content), pattern, "");
  }

  /** One message of the tagged list strips to the same message of the untagged list. */
  lemma StripOne(tenantId: string, content: string, m: Tagger.ChatMessage)
    requires IsTenantId(tenantId)
    requires !Contains(Esc(content), EscapedTemplate(tenantId))
    requires !Contains(Esc(m.content), EscapedTemplate(tenantId))
    ensures var tagged := if m.role == Tagger.System then Tagger.ChatMessage(Tagger.System, Template(tenantId) + content) else m;
            var plain := if m.role == Tagger.System then Tagger.ChatMessage(Tagger.System, content) else m;
            ReplaceAll(MessageText(tagged), EscapedTemplate(tenantId), "") == MessageText(plain)
  {
    if m.role == Tagger.System {
      StripMessage(tenantId, Tagger.System, Esc(Template(tenantId) + content));
      StripTaggedContent(tenantId, content);
    } else {
      StripMessage(tenantId, m.role, Esc(m.content));
      ReplaceAllAbsent(Esc(m.content), EscapedTemplate(tenantId), "");
    }
  }

  /** The serialized message list strips message by message. */
  lemma {:induction false} StripItems(tenantId: string, content: string, msgs: seq<Tagger.ChatMessage>)
    requires IsTenantId(tenantId)
    requires !Contains(Esc(content), EscapedTemplate(tenantId))
    requires MarkerFree(tenantId, msgs)
    ensures ReplaceAll(Items(Tagger.Rewrite(Template(tenantId) + content, msgs)), EscapedTemplate(tenantId), "")
         == Items(Tagger.Rewrite(content, msgs))
    decreases |msgs|
  {
    var pattern := EscapedTemplate(tenantId);
    var tagged := Tagger.Rewrite(Template(tenantId) + content, msgs);
    var plain := Tagger.Rewrite(content, msgs);
    if |msgs| == 0 {
      ShortUnchanged("", tenantId);
    } else {
      StripOne(tenantId, content, msgs[0]);
      if |msgs| > 1 {
        var head := MessageText(tagged[0]);
        var rest := Items(tagged[1..]);
        assert tagged[1..] == Tagger.Rewrite(Template(tenantId) + content, msgs[1..]);
        assert plain[1..] == Tagger.Rewrite(content, msgs[1..]);
        EscapedTemplateLacks(tenantId);
        NoStraddleLeft(head + ",", rest, pattern);
        ReplaceAllConcat(head + ",", rest, pattern, "");
        NoStraddleRight(head, ",", pattern);
        ReplaceAllConcat(head, ",", pattern, "");
        ShortUnchanged(",", tenantId);
        StripItems(tenantId, content, msgs[1..]);
      }
    }
  }

  /** Stripping the tagged request text gives the text of the untagged request. */
  lemma StripRequest(tenantId: string, msgs: seq<Tagger.ChatMessage>)
    requires IsTenantId(tenantId)
    requires MarkerFree(tenantId, msgs)
    ensures Codec.StripMarker(RequestText(Tagger.Tag(tenantId, msgs)), tenantId)
         == RequestText(Tagger.Untagged(msgs))
  {
    var pattern := EscapedTemplate(tenantId);
    var content := Tagger.FirstSystem(msgs);
    var items := Items(Tagger.Tag(tenantId, msgs));
    if Tagger.HasSystem(msgs) {
      var k := Tagger.FirstSystemExists(msgs);
    } else {
      ShortTextLacks(Esc(content), pattern);
    }
    StripItems(tenantId, content, msgs);
    EscapedTemplateLacks(tenantId);
    NoStraddleRight(RequestOpen + items, RequestClose, pattern);
    ReplaceAllConcat(RequestOpen + items, RequestClose, pattern, "");
    NoStraddleLeft(RequestOpen, items, pattern);
    ReplaceAllConcat(RequestOpen, items, pattern, "");
    ShortUnchanged(RequestOpen, tenantId);
    ShortUnchanged(RequestClose, tenantId);
  }

  /** The policy finds the tenant id in the tagged request and strips its marker from the text. */
  lemma DecodeTagged(tenantId: string, msgs: seq<Tagger.ChatMessage>, parse: string -> Option<Json>)
    requires IsTenantId(tenantId) && Tagger.HasSystem(msgs)
    requires parse(RequestText(Tagger.Tag(tenantId, msgs))) == Some(RequestDoc(Tagger.Tag(tenantId, msgs)))
    ensures var text := RequestText(Tagger.Tag(tenantId, msgs));
            Codec.GetAndRemoveTenantId(Some(text), parse)
              == Success(Codec.Decoded(tenantId, Codec.StripMarker(text, tenantId)))
  {
    var text := RequestText(Tagger.Tag(tenantId, msgs));
    var k := Tagger.FirstSystemExists(msgs);
    DecodeReadsTemplate(tenantId, msgs, parse, k);
    TenantIdLacksAngle(tenantId);
    Codec.DecodeAtStart(tenantId, msgs[k].content, text);
  }

  /** The decoder works on the tagged first system content. */
  lemma DecodeReadsTemplate(tenantId: string, msgs: seq<Tagger.ChatMessage>, parse: string -> Option<Json>, k: int)
    requires Tagger.FirstSystemAt(msgs, k)
    requires parse(RequestText(Tagger.Tag(tenantId, msgs))) == Some(RequestDoc(Tagger.Tag(tenantId, msgs)))
    ensures var text := RequestText(Tagger.Tag(tenantId, msgs));
            Codec.GetAndRemoveTenantId(Some(text), parse)
              == Codec.DecodeMarker(Template(tenantId) + msgs[k].content, text)
  {
    var tagged := Tagger.Tag(tenantId, msgs);
    TaggedFirstSystemDoc(tenantId, msgs, k);
    Codec.DecodesFirstSystemContent(RequestText(tagged), parse, MessageDocs(tagged), k);
  }

  lemma TenantIdLacksAngle(tenantId: string)
    requires IsTenantId(tenantId)
    ensures '<' !in tenantId
  {
    assert forall i :: 0 <= i < |tenantId| ==> tenantId[i] != '<';
  }

  /**
   * Round trip: a request tagged with a well-formed tenant id decodes to that
   * id, and the text forwarded is the request with every system message
   * holding the first system message's original content.
   */
  lemma TagThenDecode(tenantId: string, msgs: seq<Tagger.ChatMessage>, parse: string -> Option<Json>)
    requires IsTenantId(tenantId) && Tagger.HasSystem(msgs) && MarkerFree(tenantId, msgs)
    requires parse(RequestText(Tagger.Tag(tenantId, msgs))) == Some(RequestDoc(Tagger.Tag(tenantId, msgs)))
    ensures Codec.GetAndRemoveTenantId(Some(RequestText(Tagger.Tag(tenantId, msgs))), parse)
         == Success(Codec.Decoded(tenantId, RequestText(Tagger.Untagged(msgs))))
  {
    DecodeTagged(tenantId, msgs, parse);
    StripRequest(tenantId, msgs);
  }

  /**
   * The policy on a tagged request: it forwards the untagged request text,
   * and a complete run logs the tenant id the client tagged it with.
   */
  lemma PolicyOnTaggedRequest(tenantId: string, msgs: seq<Tagger.ChatMessage>, parse: string -> Option<Json>,
                              next: string -> Option<string>)
    requires IsTenantId(tenantId) && Tagger.HasSystem(msgs) && MarkerFree(tenantId, msgs)
    requires parse(RequestText(Tagger.Tag(tenantId, msgs))) == Some(RequestDoc(Tagger.Tag(tenantId, msgs)))
    ensures var o := Policy.Process(Some(RequestText(Tagger.Tag(tenantId, msgs))), parse, next);
            && |o.steps| >= 2
            && o.steps[1] == Policy.CallNext(RequestText(Tagger.Untagged(msgs)))
            && (o.fault.None? ==> o.steps[3].entry.tenantId == tenantId)
  {
    TagThenDecode(tenantId, msgs, parse);
    Policy.ForwardsDecoded(Some(RequestText(Tagger.Tag(tenantId, msgs))), parse, next);
  }

  /**
   * When every system message already holds the same content (in particular
   * when there is only one), the policy forwards exactly the request the
   * caller wrote before tagging.
   */
  lemma ForwardsCallerRequest(tenantId: string, msgs: seq<Tagger.ChatMessage>, parse: string -> Option<Json>)
    requires IsTenantId(tenantId) && Tagger.HasSystem(msgs) && MarkerFree(tenantId, msgs)
    requires forall i :: 0 <= i < |msgs| && msgs[i].role == Tagger.System ==> msgs[i].content == Tagger.FirstSystem(msgs)
    requires parse(RequestText(Tagger.Tag(tenantId, msgs))) == Some(RequestDoc(Tagger.Tag(tenantId, msgs)))
    ensures Codec.GetAndRemoveTenantId(Some(RequestText(Tagger.Tag(tenantId, msgs))), parse)
         == Success(Codec.Decoded(tenantId, RequestText(msgs)))
  {
    TagThenDecode(tenantId, msgs, parse);
    Tagger.UntaggedUniformSystem(msgs);
  }

  /**
   * A request whose only message is the system prompt: the policy recovers
   * the id and forwards the request exactly as the caller wrote it.
   */
  lemma SingleSystemMessage(tenantId: string, prompt: string, parse: string -> Option<Json>)
    requires IsTenantId(tenantId) && !Contains(Esc(prompt), EscapedTemplate(tenantId))
    requires var tagged := Tagger.Tag(tenantId, [Tagger.ChatMessage(Tagger.System, prompt)]);
             parse(RequestText(tagged)) == Some(RequestDoc(tagged))
    ensures var msgs := [Tagger.ChatMessage(Tagger.System, prompt)];
            Codec.GetAndRemoveTenantId(Some(RequestText(Tagger.Tag(tenantId, msgs))), parse)
              == Success(Codec.Decoded(tenantId, RequestText(msgs)))
  {
    var msgs := [Tagger.ChatMessage(Tagger.System, prompt)];
    assert Tagger.FirstSystemAt(msgs, 0);
    ForwardsCallerRequest(tenantId, msgs, parse);
  }
}

=== FILE: tagger.dfy ===
/**
 * The client-side tagger, `OpenAIClientExtensions.GetChatCompletions[Async]`:
 * before the request is handed to the SDK client, every system message is
 * replaced by one whose content is the tenant template followed by the
 * content of the first system message; other messages keep their place.
 * The caller's message list is emptied and refilled with the result.
 */
module Tagger {
  import opened Marker

  datatype Role = System | User | Assistant | Function

  datatype ChatMessage = ChatMessage(role: Role, content: string)

  /** What the SDK client is asked to send: the deployment name and the messages. */
  datatype ChatCall = ChatCall(deployment: string, messages: seq<ChatMessage>)

  /** The tenant id of the sample client. */
  const SampleTenantId: string := "6c9ee2ff-0333-4104-b042-ff93f2837737"

  predicate HasSystem(msgs: seq<ChatMessage>) {
    exists k :: 0 <= k < |msgs| && msgs[k].role == System
  }

  /** Index `k` holds the first system message. */
  predicate FirstSystemAt(msgs: seq<ChatMessage>, k: int) {
    && 0 <= k < |msgs|
    && msgs[k].role == System
    && forall j :: 0 <= j < k ==> msgs[j].role != System
  }

  /**
   * `Where(Role == System).FirstOrDefault() ?? new ChatMessage(System, "")`:
   * the content of the first system message, or the empty text.
   */
  function FirstSystem(msgs: seq<ChatMessage>): (r: string)
    ensures forall k :: FirstSystemAt(msgs, k) ==> r == msgs[k].content
    ensures !HasSystem(msgs) ==> r == ""
    decreases |msgs|
  {
    if |msgs| == 0 then ""
    else if msgs[0].role == System then msgs[0].content
    else
      var r := FirstSystem(msgs[1..]);
      assert forall k :: FirstSystemAt(msgs, k) ==> FirstSystemAt(msgs[1..], k - 1);
      assert !HasSystem(msgs) ==> !HasSystem(msgs[1..]) by {
        if HasSystem(msgs[1..]) {
          var k :| 0 <= k < |msgs[1..]| && msgs[1..][k].role == System;
          assert msgs[k + 1].role == System;
        }
      }
      r
  }

  /** A list with a system message has a first one. */
  lemma {:induction false} FirstSystemExists(msgs: seq<ChatMessage>) returns (k: int)
    requires HasSystem(msgs)
    ensures FirstSystemAt(msgs, k)
    decreases |msgs|
  {
    if msgs[0].role == System {
      k := 0;
    } else {
      var w :| 0 <= w < |msgs| && msgs[w].role == System;
      assert msgs[1..][w - 1].role == System;
      var k' := FirstSystemExists(msgs[1..]);
      k := k' + 1;
      assert forall j :: 1 <= j < k ==> msgs[j] == msgs[1..][j - 1];
    }
  }

  /** Every system message replaced by one holding `content`; the others kept in place. */
  function Rewrite(content: string, msgs: seq<ChatMessage>): (r: seq<ChatMessage>)
    ensures |r| == |msgs|
    ensures forall i :: 0 <= i < |msgs| ==>
              r[i] == (if msgs[i].role == System then ChatMessage(System, content) else msgs[i])
    decreases |msgs|
  {
    if |msgs| == 0 then []
    else
      var head := if msgs[0].role == System then ChatMessage(System, content) else msgs[0];
      [head] + Rewrite(content, msgs[1..])
  }

  /** The list the tagger produces for `tenantId`. */
  function Tag(tenantId: string, msgs: seq<ChatMessage>): (r: seq<ChatMessage>)
    ensures |r| == |msgs|
    ensures forall i :: 0 <= i < |msgs| && msgs[i].role != System ==> r[i] == msgs[i]
    ensures forall i :: 0 <= i < |msgs| && msgs[i].role == System
              ==> r[i] == ChatMessage(System, Template(tenantId) + FirstSystem(msgs))
  {
    Rewrite(Template(tenantId) + FirstSystem(msgs), msgs)
  }

  /** The system contents with the tenant template removed again: each one becomes the first. */
  function Untagged(msgs: seq<ChatMessage>): (r: seq<ChatMessage>)
    ensures |r| == |msgs|
    ensures forall i :: 0 <= i < |msgs| && msgs[i].role != System ==> r[i] == msgs[i]
    ensures forall i :: 0 <= i < |msgs| && msgs[i].role == System ==> r[i] == ChatMessage(System, FirstSystem(msgs))
  {
    Rewrite(FirstSystem(msgs), msgs)
  }

  /** Without a system message the list is left as it is. */
  lemma TagWithoutSystem(tenantId: string, msgs: seq<ChatMessage>)
    requires !HasSystem(msgs)
    ensures Tag(tenantId, msgs) == msgs
  {
  }

  /** Tagging keeps the first system message where it was, now led by the template. */
  lemma TagFirstSystem(tenantId: string, msgs: seq<ChatMessage>, k: int)
    requires FirstSystemAt(msgs, k)
    ensures FirstSystemAt(Tag(tenantId, msgs), k)
    ensures FirstSystem(Tag(tenantId, msgs)) == Template(tenantId) + msgs[k].content
  {
  }

  /**
   * The tagger is not idempotent: tagging the already tagged list puts the
   * template in front twice.
   */
  lemma TagTwice(tenantId: string, msgs: seq<ChatMessage>, k: int)
    requires FirstSystemAt(msgs, k)
    ensures FirstSystem(Tag(tenantId, Tag(tenantId, msgs)))
         == Template(tenantId) + (Template(tenantId) + msgs[k].content)
  {
    TagFirstSystem(tenantId, msgs, k);
    TagFirstSystem(tenantId, Tag(tenantId, msgs), k);
  }

  /** When every system message already holds the first one's content, untagging gives back the list. */
  lemma UntaggedUniformSystem(msgs: seq<ChatMessage>)
    requires forall i :: 0 <= i < |msgs| && msgs[i].role == System ==> msgs[i].content == FirstSystem(msgs)
    ensures Untagged(msgs) == msgs
  {
  }

  /** The loop of both extension methods: build the modified list message by message. */
  method DuplicateMessages(tenantId: string, messages: seq<ChatMessage>) returns (modified: seq<ChatMessage>)
    ensures modified == Tag(tenantId, messages)
  {
    var system := FirstSystem(messages);
    var template := Template(tenantId);
    modified := [];
    var i := 0;
    while i < |messages|
      invariant 0 <= i <= |messages|
      invariant |modified| == i
      invariant forall j :: 0 <= j < i ==>
                  modified[j] == (if messages[j].role == System then ChatMessage(System, template + system) else messages[j])
    {
      if messages[i].role == System {
        modified := modified + [ChatMessage(System, template + system)];
      } else {
        modified := modified + [messages[i]];
      }
      i := i + 1;
    }
  }

  /** The end of both extension methods: clear the caller's list and add the modified messages back in order. */
  method Refill(modified: seq<ChatMessage>) returns (held: seq<ChatMessage>)
    ensures held == modified
  {
    held := [];
    var i := 0;
    while i < |modified|
      invariant 0 <= i <= |modified|
      invariant held == modified[..i]
    {
      held := held + [modified[i]];
      i := i + 1;
    }
  }

  /**
   * `OpenAIClientExtensions.GetChatCompletionsAsync`: the caller's list ends up tagged,
   * and the client is asked to send exactly that list.
   */
  method GetChatCompletionsAsync(tenantId: string, deployment: string, messages: seq<ChatMessage>)
    returns (held: seq<ChatMessage>, call: ChatCall)
    ensures held == Tag(tenantId, messages)
    ensures call == ChatCall(deployment, held)
  {
    var modified := DuplicateMessages(tenantId, messages);
    held := Refill(modified);
    call := ChatCall(deployment, held);
  }

  /** `OpenAIClientExtensions.GetChatCompletions`: the same list and call as the asynchronous variant. */
  method GetChatCompletions(tenantId: string, deployment: string, messages: seq<ChatMessage>)
    returns (held: seq<ChatMessage>, call: ChatCall)
    ensures held == Tag(tenantId, messages)
    ensures call == ChatCall(deployment, held)
  {
    var modified := DuplicateMessages(tenantId, messages);
    held := Refill(modified);
    call := ChatCall(deployment, held);
  }

  /** The sample client's tenant id is made of tenant-id characters. */
  lemma SampleTenantIdWellFormed()
    ensures IsTenantId(SampleTenantId)
  {
  }
}

=== FILE: text.dfy ===
/**
 * The .NET string operations the marker codec relies on, over `seq<char>`:
 * ordinal `IndexOf`, `Contains`, `Substring(start, length)` with its range
 * check, and `Replace`, which substitutes every non-overlapping occurrence
 * from left to right without rescanning the substituted text. Indices
 * count the characters of a Dafny `string`, which are Unicode scalar values;
 * .NET counts UTF-16 code units.
 */
module Text {
  import opened Wrappers
  import opened Exceptions

  /** `pat` occurs in `s` starting at index `q`. */
  predicate OccursAt(s: string, pat: string, q: int) {
    0 <= q && q + |pat| <= |s| && s[q..q + |pat|] == pat
  }

  /** `String.Contains`: some occurrence of `pat` in `s`. */
  predicate Contains(s: string, pat: string) {
    exists q :: 0 <= q <= |s| - |pat| && OccursAt(s, pat, q)
  }

  /** An occurrence of `pat` in `x + y` that starts inside `x` and ends inside `y`. */
  predicate Straddles(x: string, y: string, pat: string) {
    exists q :: 0 <= q < |x| < q + |pat| && OccursAt(x + y, pat, q)
  }

  lemma {:induction false} OccursInPrefix(x: string, y: string, pat: string, q: int)
    requires 0 <= q && q + |pat| <= |x|
    ensures OccursAt(x + y, pat, q) <==> OccursAt(x, pat, q)
  {
    assert (x + y)[q..q + |pat|] == x[q..q + |pat|];
  }

  lemma {:induction false} OccursInSuffix(x: string, y: string, pat: string, q: int)
    requires 0 <= q
    ensures OccursAt(x + y, pat, |x| + q) <==> OccursAt(y, pat, q)
  {
    if q + |pat| <= |y| {
      assert (x + y)[|x| + q..|x| + q + |pat|] == y[q..q + |pat|];
    }
  }

  lemma {:induction false} OccursInTail(s: string, pat: string, k: int, q: int)
    requires 0 <= k <= |s| && 0 <= q
    ensures OccursAt(s, pat, k + q) <==> OccursAt(s[k..], pat, q)
  {
    if k + q + |pat| <= |s| {
      assert s[k..][q..q + |pat|] == s[k + q..k + q + |pat|];
    }
  }

  /**
   * Ordinal `String.IndexOf`: the first index at which `pat` occurs, or -1.
   * .NET's `IndexOf(string)` compares culture-sensitively: it also skips
   * characters a culture ignores and refuses a match that ends inside a
   * grapheme cluster, such as a delimiter followed by a combining mark.
   */
  function IndexOf(s: string, pat: string): (r: int)
    ensures r == -1 || 0 <= r <= |s| - |pat|
    ensures r >= 0 ==> OccursAt(s, pat, r)
    ensures forall q :: 0 <= q < r ==> !OccursAt(s, pat, q)
    ensures r == -1 <==> !Contains(s, pat)
  {
    IndexFrom(s, pat, 0)
  }

  /** The first occurrence at or after `k`, or -1. */
  function IndexFrom(s: string, pat: string, k: nat): (r: int)
    ensures r == -1 || k <= r <= |s| - |pat|
    ensures r >= 0 ==> OccursAt(s, pat, r)
    ensures forall q :: k <= q < r ==> !OccursAt(s, pat, q)
    ensures r == -1 <==> forall q :: k <= q <= |s| - |pat| ==> !OccursAt(s, pat, q)
    decreases |s| - k
  {
    if k + |pat| > |s| then -1
    else if OccursAt(s, pat, k) then k
    else IndexFrom(s, pat, k + 1)
  }

  /** `IndexOf` is pinned down by a first occurrence. */
  lemma {:induction false} IndexOfFirst(s: string, pat: string, p: int)
    requires OccursAt(s, pat, p)
    requires forall q :: 0 <= q < p ==> !OccursAt(s, pat, q)
    ensures IndexOf(s, pat) == p
  {
  }

  /** `String.Substring(start, length)`: the exception when the range leaves `s`. */
  function Substring(s: string, start: int, length: int): (r: Result<string, Exception>)
    ensures r.Success? <==> 0 <= start && 0 <= length && start + length <= |s|
    ensures r.Failure? ==> r.error == ArgumentOutOfRange
    ensures r.Success? ==> |r.value| == length && OccursAt(s, r.value, start)
  {
    if start < 0 || length < 0 || start > |s| - length then Failure(ArgumentOutOfRange)
    else Success(s[start..start + length])
  }

  /**
   * `String.Replace(pattern, replacement)`: every non-overlapping occurrence,
   * found left to right, is replaced; the replacement is not rescanned.
   */
  function ReplaceAll(s: string, pattern: string, replacement: string): string
    requires |pattern| > 0
    decreases |s|
  {
    var i := IndexOf(s, pattern);
    if i == -1 then s
    else s[..i] + replacement + ReplaceAll(s[i + |pattern|..], pattern, replacement)
  }

  /** Text without an occurrence is returned unchanged. */
  lemma ReplaceAllAbsent(s: string, pattern: string, replacement: string)
    requires |pattern| > 0
    ensures !Contains(s, pattern) ==> ReplaceAll(s, pattern, replacement) == s
  {
  }

  /**
   * A replacement no longer than the pattern never lengthens the text, and a
   * strictly shorter one shortens any text that contains the pattern.
   */
  lemma {:induction false} ReplaceAllLength(s: string, pattern: string, replacement: string)
    requires |pattern| > 0 && |replacement| <= |pattern|
    ensures |ReplaceAll(s, pattern, replacement)| <= |s|
    ensures Contains(s, pattern) && |replacement| < |pattern| ==> |ReplaceAll(s, pattern, replacement)| < |s|
    decreases |s|
  {
    var i := IndexOf(s, pattern);
    if i == -1 {
      ReplaceAllAbsent(s, pattern, replacement);
    } else {
      var rest := s[i + |pattern|..];
      ReplaceAllLength(rest, pattern, replacement);
      ReplaceAllUnfold(s, pattern, replacement, i);
      assert |rest| == |s| - i - |pattern|;
    }
  }

  /** An occurrence at the very front is replaced and scanning resumes after it. */
  lemma {:induction false} ReplaceAllFront(pattern: string, y: string, replacement: string)
    requires |pattern| > 0
    ensures ReplaceAll(pattern + y, pattern, replacement) == replacement + ReplaceAll(y, pattern, replacement)
  {
    var s := pattern + y;
    assert s[..|pattern|] == pattern;
    assert s[|pattern|..] == y;
  }

  /** With exactly one occurrence, at `p`, the result is `s` with that slice replaced. */
  lemma {:induction false} ReplaceAllSingle(s: string, pattern: string, replacement: string, p: int)
    requires |pattern| > 0
    requires OccursAt(s, pattern, p)
    requires forall q :: 0 <= q < |s| && q != p ==> !OccursAt(s, pattern, q)
    ensures ReplaceAll(s, pattern, replacement) == s[..p] + replacement + s[p + |pattern|..]
  {
    IndexOfFirst(s, pattern, p);
    var rest := s[p + |pattern|..];
    NoneAfter(s, pattern, p + |pattern|);
    ReplaceAllAbsent(rest, pattern, replacement);
  }

  /** A tail that starts past every occurrence contains none. */
  lemma {:induction false} NoneAfter(s: string, pattern: string, k: int)
    requires 0 < k <= |s| && |pattern| > 0
    requires forall q :: k <= q < |s| ==> !OccursAt(s, pattern, q)
    ensures !Contains(s[k..], pattern)
  {
    forall q | 0 <= q <= |s[k..]| - |pattern|
      ensures !OccursAt(s[k..], pattern, q)
    {
      OccursInTail(s, pattern, k, q);
    }
  }

  /** Neither side of a concatenation free of `pattern` contains it. */
  lemma {:induction false} NoneInParts(x: string, y: string, pattern: string)
    requires !Contains(x + y, pattern)
    ensures !Contains(x, pattern) && !Contains(y, pattern)
  {
    forall q | 0 <= q <= |x| - |pattern|
      ensures !OccursAt(x, pattern, q)
    {
      OccursInPrefix(x, y, pattern, q);
    }
    forall q | 0 <= q <= |y| - |pattern|
      ensures !OccursAt(y, pattern, q)
    {
      OccursInSuffix(x, y, pattern, q);
    }
  }

  /** The first occurrence in `x + y` lies inside `x`: it is also the first one of `x`. */
  lemma {:induction false} FirstInLeft(x: string, y: string, pattern: string, i: int)
    requires 0 <= i && i + |pattern| <= |x|
    requires i == IndexOf(x + y, pattern)
    ensures IndexOf(x, pattern) == i
  {
    OccursInPrefix(x, y, pattern, i);
    forall q | 0 <= q < i
      ensures !OccursAt(x, pattern, q)
    {
      OccursInPrefix(x, y, pattern, q);
    }
    IndexOfFirst(x, pattern, i);
  }

  /** The first occurrence in `x + y` lies inside `y`: it is also `y`'s first. */
  lemma {:induction false} FirstInRight(x: string, y: string, pattern: string, i: int)
    requires |x| <= i
    requires i == IndexOf(x + y, pattern)
    ensures IndexOf(y, pattern) == i - |x|
  {
    var j := i - |x|;
    OccursInSuffix(x, y, pattern, j);
    assert OccursAt(y, pattern, j);
    forall q | 0 <= q < j
      ensures !OccursAt(y, pattern, q)
    {
      OccursInSuffix(x, y, pattern, q);
    }
    IndexOfFirst(y, pattern, j);
  }

  /** When the first occurrence in `x + y` starts at or after the seam, `x` has none. */
  lemma {:induction false} NoneBefore(x: string, y: string, pattern: string, i: int)
    requires |x| <= i && |pattern| > 0
    requires i == IndexOf(x + y, pattern)
    ensures !Contains(x, pattern)
  {
    forall q | 0 <= q <= |x| - |pattern|
      ensures !OccursAt(x, pattern, q)
    {
      OccursInPrefix(x, y, pattern, q);
    }
  }

  /**
   * `Replace` distributes over a concatenation when no occurrence crosses
   * the seam.
   */
  lemma {:induction false} ReplaceAllConcat(x: string, y: string, pattern: string, replacement: string)
    requires |pattern| > 0
    requires !Straddles(x, y, pattern)
    ensures ReplaceAll(x + y, pattern, replacement)
         == ReplaceAll(x, pattern, replacement) + ReplaceAll(y, pattern, replacement)
    decreases |x|
  {
    var i := IndexOf(x + y, pattern);
    if i == -1 {
      NoneInParts(x, y, pattern);
      ReplaceAllAbsent(x + y, pattern, replacement);
      ReplaceAllAbsent(x, pattern, replacement);
      ReplaceAllAbsent(y, pattern, replacement);
    } else if i + |pattern| <= |x| {
      var x' := x[i + |pattern|..];
      StraddleFreeTail(x, y, pattern, i + |pattern|);
      ReplaceAllConcat(x', y, pattern, replacement);
      ReplaceAllFirstLeft(x, y, pattern, replacement, i);
    } else if i < |x| {
      assert false;
    } else {
      ReplaceAllFirstRight(x, y, pattern, replacement, i);
    }
  }

  /** `Replace` at its first occurrence: keep the text before it, substitute, continue after it. */
  lemma {:induction false} ReplaceAllUnfold(s: string, pattern: string, replacement: string, i: int)
    requires |pattern| > 0
    requires i == IndexOf(s, pattern) && i >= 0
    ensures ReplaceAll(s, pattern, replacement)
         == s[..i] + replacement + ReplaceAll(s[i + |pattern|..], pattern, replacement)
  {
  }

  /** One step of `ReplaceAllConcat` when the first occurrence lies inside `x`. */
  lemma {:induction false} ReplaceAllFirstLeft(x: string, y: string, pattern: string, replacement: string, i: int)
    requires |pattern| > 0
    requires 0 <= i && i + |pattern| <= |x|
    requires i == IndexOf(x + y, pattern)
    requires ReplaceAll(x[i + |pattern|..] + y, pattern, replacement)
          == ReplaceAll(x[i + |pattern|..], pattern, replacement) + ReplaceAll(y, pattern, replacement)
    ensures ReplaceAll(x + y, pattern, replacement)
         == ReplaceAll(x, pattern, replacement) + ReplaceAll(y, pattern, replacement)
  {
    UnfoldInLeft(x, y, pattern, replacement, i);
    FirstInLeft(x, y, pattern, i);
    ReplaceAllUnfold(x, pattern, replacement, i);
  }

  /** `Replace` on `x + y` at a first occurrence inside `x`. */
  lemma {:induction false} UnfoldInLeft(x: string, y: string, pattern: string, replacement: string, i: int)
    requires |pattern| > 0
    requires 0 <= i && i + |pattern| <= |x|
    requires i == IndexOf(x + y, pattern)
    ensures ReplaceAll(x + y, pattern, replacement)
         == x[..i] + replacement + ReplaceAll(x[i + |pattern|..] + y, pattern, replacement)
  {
    ReplaceAllUnfold(x + y, pattern, replacement, i);
    assert (x + y)[i + |pattern|..] == x[i + |pattern|..] + y;
    assert (x + y)[..i] == x[..i];
  }

  /** `ReplaceAllConcat` when the first occurrence starts at or after the seam. */
  lemma {:induction false} ReplaceAllFirstRight(x: string, y: string, pattern: string, replacement: string, i: int)
    requires |pattern| > 0
    requires |x| <= i
    requires i == IndexOf(x + y, pattern)
    ensures ReplaceAll(x + y, pattern, replacement)
         == ReplaceAll(x, pattern, replacement) + ReplaceAll(y, pattern, replacement)
  {
    var j := i - |x|;
    var rest := ReplaceAll(y[j + |pattern|..], pattern, replacement);
    calc {
      ReplaceAll(x + y, pattern, replacement);
      { UnfoldInRight(x, y, pattern, replacement, i, j); }
      (x + y[..j]) + replacement + rest;
      { Regroup(x, y[..j], replacement, rest); }
      x + (y[..j] + replacement + rest);
      { FirstInRight(x, y, pattern, i);
        ReplaceAllUnfold(y, pattern, replacement, j); }
      x + ReplaceAll(y, pattern, replacement);
      { NoneBefore(x, y, pattern, i); ReplaceAllAbsent(x, pattern, replacement); }
      ReplaceAll(x, pattern, replacement) + ReplaceAll(y, pattern, replacement);
    }
  }

  /** Re-associating a four-part concatenation. */
  lemma {:induction false} Regroup(a: string, b: string, c: string, d: string)
    ensures (a + b) + c + d == a + (b + c + d)
  {
  }

  /** `Replace` on `x + y` at a first occurrence at or after the seam. */
  lemma {:induction false} UnfoldInRight(x: string, y: string, pattern: string, replacement: string, i: int, j: int)
    requires |pattern| > 0
    requires |x| <= i && j == i - |x|
    requires i == IndexOf(x + y, pattern)
    ensures j + |pattern| <= |y|
    ensures ReplaceAll(x + y, pattern, replacement)
         == (x + y[..j]) + replacement + ReplaceAll(y[j + |pattern|..], pattern, replacement)
  {
    SeamSlices(x, y, i, j, |pattern|);
    UnfoldAt(x + y, pattern, replacement, i, x + y[..j], y[j + |pattern|..]);
  }

  /** `ReplaceAllUnfold` with the text before and after the occurrence given by name. */
  lemma {:induction false} UnfoldAt(s: string, pattern: string, replacement: string, i: int, before: string, after: string)
    requires |pattern| > 0
    requires i == IndexOf(s, pattern) && i >= 0
    requires before == s[..i] && after == s[i + |pattern|..]
    ensures ReplaceAll(s, pattern, replacement) == before + replacement + ReplaceAll(after, pattern, replacement)
  {
    ReplaceAllUnfold(s, pattern, replacement, i);
  }

  /** Cutting `x + y` at a point inside `y`. */
  lemma {:induction false} SeamSlices(x: string, y: string, i: int, j: int, n: nat)
    requires |x| <= i && j == i - |x| && i + n <= |x| + |y|
    ensures (x + y)[..i] == x + y[..j]
    ensures (x + y)[i + n..] == y[j + n..]
  {
  }

  /** Dropping a prefix of the left side keeps the seam free of crossings. */
  lemma {:induction false} StraddleFreeTail(x: string, y: string, pattern: string, k: int)
    requires 0 <= k <= |x|
    requires !Straddles(x, y, pattern)
    ensures !Straddles(x[k..], y, pattern)
  {
    assert (x + y)[k..] == x[k..] + y;
    forall q | 0 <= q < |x[k..]| < q + |pattern|
      ensures !OccursAt(x[k..] + y, pattern, q)
    {
      OccursInTail(x + y, pattern, k, q);
    }
  }

  /** No occurrence crosses a seam whose left side ends with a character `pattern` lacks. */
  lemma {:induction false} NoStraddleLeft(x: string, y: string, pattern: string)
    requires |x| > 0 && x[|x| - 1] !in pattern
    ensures !Straddles(x, y, pattern)
  {
    forall q | 0 <= q < |x| < q + |pattern|
      ensures !OccursAt(x + y, pattern, q)
    {
      assert (x + y)[|x| - 1] == x[|x| - 1];
    }
  }

  /** No occurrence crosses a seam whose right side starts with a character `pattern` lacks. */
  lemma {:induction false} NoStraddleRight(x: string, y: string, pattern: string)
    requires |y| > 0 && y[0] !in pattern
    ensures !Straddles(x, y, pattern)
  {
    forall q | 0 <= q < |x| < q + |pattern|
      ensures !OccursAt(x + y, pattern, q)
    {
      assert (x + y)[|x|] == y[0];
    }
  }

  /** Text shorter than the pattern cannot contain it. */
  lemma {:induction false} ShortTextLacks(s: string, pattern: string)
    requires |s| < |pattern|
    ensures !Contains(s, pattern)
  {
  }
}

=== FILE: usage.dfy ===
/**
 * Reading the token usage of a chat completion response: `GetTokenUsage`
 * parses the response text and reads three 16-bit counters from its `usage`
 * object; `GetUsage` drains the response stream, reads the usage and hands
 * the text back so that it can be put into a fresh stream.
 */
module Usage {
  import opened Wrappers
  import opened Exceptions
  import opened JsonModel

  /** The three counters, in the order the policy returns them. */
  datatype TokenUsage = TokenUsage(total: int, completion: int, prompt: int)

  /** What `GetUsage` hands back: the usage and the response text it read. */
  datatype UsageRead = UsageRead(usage: TokenUsage, content: string)

  const NoUsage: TokenUsage := TokenUsage(0, 0, 0)

  /** `usage.GetProperty(name).GetInt16()`. */
  function ReadCounter(usage: Json, name: string): Result<int, Exception> {
    var counter :- GetProperty(usage, name);
    GetInt16(counter)
  }

  /**
   * The response document reports `u`: its `usage` object holds the three
   * counters as numbers within 16 bits (the last definition of each name counts).
   */
  predicate Reports(doc: Json, u: TokenUsage) {
    && GetProperty(doc, "usage").Success?
    && var usage := GetProperty(doc, "usage").value;
    && GetProperty(usage, "total_tokens") == Success(JInt(u.total))
    && GetProperty(usage, "completion_tokens") == Success(JInt(u.completion))
    && GetProperty(usage, "prompt_tokens") == Success(JInt(u.prompt))
    && InInt16(u.total) && InInt16(u.completion) && InInt16(u.prompt)
  }

  /**
   * `GetTokenUsage`: parse the response text and read `total_tokens`,
   * `completion_tokens` and `prompt_tokens`, in that order, from `usage`.
   * A missing `usage` object is an exception, not a zero count.
   */
  function GetTokenUsage(content: string, parse: string -> Option<Json>): (r: Result<TokenUsage, Exception>)
    ensures parse(content).None? ==> r == Failure(JsonParse)
    ensures r.Success? ==> parse(content).Some? && Reports(parse(content).value, r.value)
    ensures forall u :: parse(content).Some? && Reports(parse(content).value, u) ==> r == Success(u)
  {
    match parse(content)
    case None => Failure(JsonParse)
    case Some(doc) =>
      var usage :- GetProperty(doc, "usage");
      var total :- ReadCounter(usage, "total_tokens");
      var completion :- ReadCounter(usage, "completion_tokens");
      var prompt :- ReadCounter(usage, "prompt_tokens");
      Success(TokenUsage(total, completion, prompt))
  }

  /** A response without a `usage` object raises `KeyNotFoundException` for "usage". */
  lemma MissingUsageFails(content: string, parse: string -> Option<Json>, props: seq<Property>)
    requires parse(content) == Some(JObject(props))
    requires forall i :: 0 <= i < |props| ==> props[i].name != "usage"
    ensures GetTokenUsage(content, parse) == Failure(KeyNotFound("usage"))
  {
  }

  /** A counter that does not fit in 16 bits raises `FormatException`, checked in reading order. */
  lemma CounterOutOfRangeFails(content: string, parse: string -> Option<Json>, usage: Json, n: int)
    requires parse(content).Some? && GetProperty(parse(content).value, "usage") == Success(usage)
    requires GetProperty(usage, "total_tokens") == Success(JInt(n)) && !InInt16(n)
    ensures GetTokenUsage(content, parse) == Failure(Format)
  {
  }

  /** The three counters of `u` as `usage` properties, in the order an OpenAI endpoint writes them. */
  function Counters(u: TokenUsage): seq<Property> {
    [Property("prompt_tokens", JInt(u.prompt)),
     Property("completion_tokens", JInt(u.completion)),
     Property("total_tokens", JInt(u.total))]
  }

  /**
   * Reading back the counters of a response returns them, whatever order the
   * `usage` object lists them in and whatever else the response holds.
   */
  lemma UsageRoundTrip(content: string, parse: string -> Option<Json>, u: TokenUsage, props: seq<Property>)
    requires parse(content).Some? && GetProperty(parse(content).value, "usage") == Success(JObject(props))
    requires multiset(props) == multiset(Counters(u))
    requires InInt16(u.total) && InInt16(u.completion) && InInt16(u.prompt)
    ensures GetTokenUsage(content, parse) == Success(u)
  {
    CounterRead(u, props, 0);
    CounterRead(u, props, 1);
    CounterRead(u, props, 2);
    assert Reports(parse(content).value, u);
  }

  /** In any arrangement of the three counters, each name reads its own value. */
  lemma CounterRead(u: TokenUsage, props: seq<Property>, k: int)
    requires multiset(props) == multiset(Counters(u)) && 0 <= k < 3
    ensures GetProperty(JObject(props), Counters(u)[k].name) == Success(Counters(u)[k].value)
  {
    var p := Counters(u)[k];
    assert p in multiset(props);
    var r := GetProperty(JObject(props), p.name);
    var j :| 0 <= j < |props| && props[j] == Property(p.name, r.value);
    assert props[j] in multiset(Counters(u));
  }

  /**
   * `GetUsage`: with no response stream the usage is zero and the text empty;
   * otherwise the whole stream is read, its usage parsed, and the text handed
   * back unchanged for the fresh stream.
   */
  function GetUsage(stream: Option<string>, parse: string -> Option<Json>): (r: Result<UsageRead, Exception>)
    ensures stream.None? ==> r == Success(UsageRead(NoUsage, ""))
    ensures stream.Some? ==> (r.Success? <==> GetTokenUsage(stream.value, parse).Success?)
    ensures stream.Some? && r.Success? ==> r.value.content == stream.value
    ensures stream.Some? && r.Success? ==> parse(stream.value).Some? && Reports(parse(stream.value).value, r.value.usage)
    ensures r.Failure? ==> stream.Some? && r.error == GetTokenUsage(stream.value, parse).error
  {
    match stream
    case None => Success(UsageRead(NoUsage, ""))
    case Some(content) =>
      var usage :- GetTokenUsage(content, parse);
      Success(UsageRead(usage, content))
  }
}

=== FILE: wire.dfy ===
/**
 * The request body the SDK client writes for a chat completion call,
 * reduced to its `messages` array: each message as an object with `role`
 * and `content`, the content escaped by the default encoder. Both the text
 * the policy receives and the document a JSON parser reads from it are
 * given, so that the tagger and the policy can be composed.
 */
module Wire {
  import opened JsonModel
  import opened Tagger

  /** The wire name of a chat role. */
  function RoleName(role: Role): (s: string)
    ensures s == "system" <==> role == System
    ensures |s| <= 9
  {
    match role
    case System => "system"
    case User => "user"
    case Assistant => "assistant"
    case Function => "function"
  }

  /** Everything of a serialized message that precedes its escaped content. */
  function MessageOpen(role: Role): (s: string)
    ensures |s| <= 31 && |s| > 0 && s[|s| - 1] == '"'
  {
    "{\"role\":\"" + RoleName(role) + "\",\"content\":\""
  }

  const MessageClose: string := "\"}"

  function MessageText(m: ChatMessage): string {
    MessageOpen(m.role) + Esc(m.content) + MessageClose
  }

  /** The messages serialized one after the other, separated by commas. */
  function Items(msgs: seq<ChatMessage>): string
    decreases |msgs|
  {
    if |msgs| == 0 then ""
    else if |msgs| == 1 then MessageText(msgs[0])
    else MessageText(msgs[0]) + "," + Items(msgs[1..])
  }

  const RequestOpen: string := "{\"messages\":["
  const RequestClose: string := "]}"

  /** The raw request text the policy receives. */
  function RequestText(msgs: seq<ChatMessage>): string {
    RequestOpen + Items(msgs) + RequestClose
  }

  /** The parsed form of one serialized message. */
  function MessageDoc(m: ChatMessage): Json {
    JObject([Property("role", JString(RoleName(m.role))), Property("content", JString(m.content))])
  }

  function MessageDocs(msgs: seq<ChatMessage>): (r: seq<Json>)
    ensures |r| == |msgs| && forall i :: 0 <= i < |msgs| ==> r[i] == MessageDoc(msgs[i])
  {
    seq(|msgs|, i requires 0 <= i < |msgs| => MessageDoc(msgs[i]))
  }

  /** The parsed form of the whole request text. */
  function RequestDoc(msgs: seq<ChatMessage>): Json {
    JObject([Property("messages", JArray(MessageDocs(msgs)))])
  }
}
